=== FILE: README.md ===
# Shopping scenarios of sw-testing, modelled in Dafny

The repository drives a small online store through two scenarios built on
lodash-style utilities. In the first, a customer browses the catalog, filters
it by minimum price, adds products to a shopping cart and changes quantities
in the cart. In the second, a producer signs in, enters a new product,
validates it, transmits it, stores it and is shown a confirmation.

This project models those steps as pure Dafny functions over a model of
JavaScript values and proves what they promise.

- `js_value.dfy` (`JsValue`): the values the code handles (`undefined`,
  `null`, booleans, numbers as exact reals plus `NaN`, strings, arrays and
  plain objects), truthiness, `===`, SameValueZero (lodash `eq`), property
  reads that throw on nullish values, lodash `get`, `castArray` and
  `isArrayLikeObject`.
- `coercion.dfy` (`Coercion`): ToString, ToNumber (string-to-number parsing
  with `0x`/`0b`/`0o` prefixes, signs, fractions and exponents), the `>=`,
  `<=` and `*` operators, lodash `add`, and `includes` on strings and arrays.
- `collections.dfy` (`Collections`): lodash `filter`, `reduce` and `compact`.
  A callback that throws makes the whole call throw.
- `product.dfy` (`ProductFields`): the field names of a product record.
- `catalog.dfy` (`Catalog`): `browseProductCatalog` and the minimum-price
  stage of `filterSearchResults`.
- `cart.dfy` (`Cart`): `addToCart` and `interactWithCart`. A cart is a
  sequence of plain-object items. The function takes the old cart and
  returns the new one, where the source mutates the cart in place.
- `producer.dfy` (`Producer`): `producerLogin`, `addNewProduct`,
  `requestTransmission`, `validateProductInfo`, `addProductToDatabase` and
  `showProductAdditionConfirmation`.

A thrown `TypeError`, such as reading a property of `null`, is the `TypeError`
case of `Result`. Each operation says exactly when it throws.

The model follows the code where the repository's integration tests expect
something else. The disagreements with the modelled operations are these:

- `browseProductCatalog` returns the matching products whole, id and category
  included (`Catalog.BrowseProductCatalog` keeps catalog elements). The test
  expects objects with only a name, a description and a price. The
  minimum-price stage likewise keeps whole products
  (`Catalog.MinPriceStage`), where the `filterSearchResults` test expects the
  same trimmed objects.
- `filterSearchResults(products, null)` throws when it reads
  `filterOptions.minPrice` (`Catalog.MinPriceFilter`). The test expects the
  products back.

- Lowering a quantity of 3 by 1 in `interactWithCart` keeps the item with
  quantity 2 (`Cart.DecrementKeepsItem`). The test expects an empty cart.
- `addToCart(null, [])` appends a placeholder item with an undefined id
  (`Cart.NullSelectionAppendsPlaceholder`). The test's comment says the cart
  should stay unchanged, but the test compares the returned array with the
  same array, so it cannot see the placeholder.
- `addToCart` adds products with missing fields: a product without an id and
  a product without a name each get an item with the defaults
  (`Cart.IncompleteProductsAreAdded`). The test expects an empty cart.
- `producerLogin(email, password)` without a credential list always fails
  (`Producer.LoginWithoutCredentialsFails`). The test expects success.
- `validateProductInfo` rejects a string category such as `'Fruit'`, because
  a string primitive is not an array-like object
  (`Producer.StringCategoryIsRejected`). The test expects it to be accepted.
- `addNewProduct` assigns the result of `compact` to its parameter before
  pushing, so the new product goes into a fresh array returned in the result
  (`Producer.AddNewProduct`). The tests expect the caller's array to have
  length 1 after a successful addition, and length 0 when fields are
  missing; the caller's array keeps its two products in both cases.
- `requestTransmission` accepts a price of `'InvalidPrice'`, because it only
  checks that the four fields are truthy (`Producer.WordPriceIsTransmitted`).
  The test expects the data to be rejected.
- A test of `requestTransmission` expects the message 'Error processing
  product data.', which the code never returns (`Producer.RequestTransmission`
  returns one of its two fixed messages).
- Three more `validateProductInfo` tests use the string category 'Fruit'
  with a valid price: the one expecting 'Invalid createdDate format.', the
  one expecting 'Images should be an array-like object.', and the one
  expecting 'Error in validating product information.'. The code reports
  'Categories should be an array-like object.' for all three
  (`Producer.StringCategoryIsRejected`), and checks neither `createdDate` nor
  `images`. The test with the price 'InvalidPrice' agrees with the code: the
  price rule fails before the category rule is reached
  (`Producer.StringPriceIsRejected`).

## Model

| member | source | states |
|---|---|---|
| `Catalog.InCategory` | utils/functionalties/scenario1.js:16 | The category test throws exactly for a nullish product. Otherwise it is `includes` on the product's category: a substring search on a string, SameValueZero membership on an array, and a throw for anything else. |
| `Catalog.BrowseProductCatalog` | utils/functionalties/scenario1.js:15-18 | A null or undefined catalog gives `[]`. The call throws exactly when some product's category test throws. Otherwise the result keeps catalog order, holds only products whose category includes the requested one, and keeps each such product as often as the catalog lists it. |
| `Catalog.PriceAtLeast` | utils/functionalties/scenario1.js:35 | The iteratee test throws exactly for a nullish product. Otherwise it holds exactly when the product's price is `>=` minPrice under the relational comparison. |
| `Catalog.PricedFilter` | utils/functionalties/scenario1.js:34-39 | Collecting with `reduce` and a pushing iteratee keeps exactly the products that pass the price test, in order and with their multiplicity. It throws exactly when the test throws on some product. |
| `Catalog.MinPriceFilter` | utils/functionalties/scenario1.js:29-40 | Null or undefined filter options throw at the read of `minPrice`. Options without a `minPrice` field pass the products through, and otherwise the minimum-price stage runs on the value read. |
| `Catalog.MinPriceStage` | utils/functionalties/scenario1.js:33-40 | An undefined minPrice passes the products through unchanged. Any other minPrice yields an array that is a subsequence of the products: exactly those passing the price test, each kept as often as it occurs. |
| `Catalog.MinPriceStageKeepsPricedProducts` | utils/functionalties/scenario1.js:33-40 | With a minPrice, the stage throws exactly on a nullish product. It keeps exactly the products whose price is at least minPrice, with their multiplicity. |
| `Collections.Reduce` | utils/functionalties/scenario1.js:102-106 | `reduce` over an empty array returns the seed. It throws when the iteratee throws on the first element, and over one element it returns the iteratee's result. |
| `Collections.ReduceSnoc` | utils/functionalties/scenario1.js:102-106 | Reducing an array with one more element at the end applies the iteratee once more to the previous result, unless that result already threw. |
| `Collections.Filter` | utils/functionalties/scenario1.js:16 | lodash `filter` throws exactly when the predicate throws on some element. Otherwise it returns a subsequence of the input containing only accepted elements, each accepted element as often as it occurs. |
| `Collections.ReduceKeepIfIsFilter` | utils/functionalties/scenario1.js:34-39 | A `reduce` whose iteratee pushes the accepted elements throws exactly when `filter` does. Otherwise it returns the seed followed by what `filter` returns. |
| `Collections.FirstIndex` | utils/functionalties/scenario1.js:90 | `findIndex` finds the first position whose element satisfies the test. It finds no position exactly when no element does. |
| `Collections.FilterEmpty` | utils/functionalties/scenario2.js:15-19 | What `filter` returns is empty exactly when no element satisfies the test. |
| `Collections.FilterHead` | utils/functionalties/scenario2.js:15-19 | When `filter` returns something, its head is the first element that satisfies the test. |
| `Collections.RemoveAt` | utils/functionalties/scenario1.js:98-100 | `splice(i, 1)` shortens the array by one: the elements before `i` stay where they are and the ones after it move down by one. |
| `Collections.Compact` | utils/functionalties/scenario2.js:44 | `compact(null)` is empty. Otherwise `compact` keeps, in order, exactly the truthy elements, each as often as it occurs. |
| `JsValue.SameValueZero` | utils/functionalties/scenario2.js:16 | lodash `eq` equates two numbers exactly when they are equal, two strings exactly when they are the same, and NaN with NaN only. A number never equals a non-number, and an array or object equals nothing else. |
| `JsValue.SameValueZeroSymmetric` | utils/functionalties/scenario2.js:16 | `eq(a, b)` and `eq(b, a)` agree. |
| `JsValue.ReadProp` | utils/functionalties/scenario1.js:90 | The property read `item.id` throws exactly when the item is `null` or `undefined`. Otherwise it yields the property. |
| `JsValue.IsArrayLikeObject` | utils/functionalties/scenario2.js:80 | Every array is array-like and no primitive is. A plain object is array-like only with a numeric `length` field, and never with a negative one. |
| `JsValue.Get` | test/get.test.js:66-69 | lodash `get` gives the default for a nullish object and for a missing or undefined field. Otherwise it gives the field's value. It gives `undefined` only when the default is `undefined`. |
| `JsValue.CastArray` | utils/functionalties/scenario1.js:66 | `castArray` returns an array as it is and wraps any other value, `undefined` and `null` included, in a one-element array. |
| `Coercion.Add` | test/add.test.js:24-35 | lodash `add` treats `undefined` as 0, so `add(undefined, undefined)` is 0. Two numbers give their sum, and NaN is absorbing. The result is always a number or NaN. |
| `Coercion.ToNumber` | test/toNumber.test.js:51-62 | `toNumber` gives a number or NaN: `true` is 1, `false` and `null` are 0, `undefined` is NaN, a blank string is 0, and numbers and NaN are returned as they are. |
| `Coercion.TrimRemovesOnlyWhiteSpace` | test/toNumber.test.js:44-46 | Trimming a string leaves a piece of it that neither starts nor ends with white space, with only white space before and after it in the original. |
| `Coercion.IntegerRoundTrip` | test/toNumber.test.js:24-26 | `toNumber(String(k))` is `k` for every integer `k`, negative ones included. |
| `Coercion.AtLeast` | utils/functionalties/scenario1.js:35 | `a >= b` agrees with `>=` on two numbers and with the lexicographic order on two strings. It is false whenever either side is NaN or `undefined`. |
| `Coercion.AtMost` | utils/functionalties/scenario1.js:98 | `a <= b` agrees with `<=` on two numbers. It is false whenever either side is NaN or `undefined`. |
| `Coercion.Times` | utils/functionalties/scenario1.js:104 | `price * quantity` is the product of two numbers. It is NaN when either side is NaN or `undefined`. |
| `Coercion.Includes` | utils/functionalties/scenario1.js:16 | `includes` on a string is a substring test, on an array is SameValueZero membership, and on anything else throws. |
| `Cart.FirstMatch` | utils/functionalties/scenario1.js:71 | The cart lookup finds the first item whose id is `===` to the product id. It finds nothing exactly when no item's id is. |
| `Cart.NewItem` | utils/functionalties/scenario1.js:76-81 | A pushed item has exactly the fields id, name, price and quantity, with quantity 1. Name and price are copied from the product, defaulting to 'Unknown Product' and 0 when undefined. |
| `Cart.AddOne` | utils/functionalties/scenario1.js:70-82 | Without a matching item, the new item is appended. Otherwise only the first matching item changes: its quantity becomes `add(quantity, 1)` and every other field stays. |
| `Cart.AddEach` | utils/functionalties/scenario1.js:69-83 | The cart grows by at most one item per product. Existing items change at most in quantity, and an item whose id no product's id is `===` to stays exactly as it was. Every appended item is the new item of one of the products, except perhaps in quantity, and no appended item's id is `===` to an earlier item's id. Afterwards, every product whose id is `===` to itself has an item with that id. |
| `Cart.AddToCart` | utils/functionalties/scenario1.js:64-86 | Adding `castArray(selected)` keeps existing items, changing at most their quantities, and leaves every item that no selected product's id matches exactly as it was. It appends at most one item per product, each the new item of a selected product up to its quantity, and never with a duplicate id. Every selected product whose id is `===` to itself ends up with an item of that id, and an empty selection changes nothing. |
| `Cart.AddEachCountsEachProduct` | utils/functionalties/scenario1.js:69-83 | With numeric or absent quantities, each added product raises the cart's total number of units by exactly one. |
| `Cart.AddToCartCountsEachProduct` | utils/functionalties/scenario1.js:64-86 | With numeric or absent quantities, `addToCart` raises the number of units in the cart by the number of selected products. |
| `Cart.AddEachCountsPerItem` | utils/functionalties/scenario1.js:69-83 | Item by item, after the loop: an item already in the cart with a numeric or absent quantity has gained exactly one unit per product that finds it by id, and an appended item with an id `===` to itself holds exactly one unit per product that finds it. |
| `Cart.AddToCartCountsPerItem` | utils/functionalties/scenario1.js:64-86 | The same per-item count for `addToCart`, over the products of `castArray(selected)`. |
| `Cart.AddToCartFindsOldItems` | utils/functionalties/scenario1.js:70-71 | For an item already in the cart, the products that find it in the resulting cart are exactly those that find it in the original cart, since appending and raising quantities keep every earlier id in place. |
| `Cart.AppendedFoundByEqualIds` | utils/functionalties/scenario1.js:70-71 | A product finds an appended item exactly when the product's id is `===` to the item's id, because no earlier item carries such an id. So an appended item's quantity is the number of selected products with that id. |
| `Cart.SameProductTwiceAppendsOnce` | utils/functionalties/scenario1.js:69-83 | Selecting a new product twice in one call appends a single item with quantity 2. |
| `Cart.NullSelectionAppendsPlaceholder` | utils/functionalties/scenario1.js:64-86 | `addToCart(null, [])` yields one item with an undefined id, name 'Unknown Product', price 0 and quantity 1. |
| `Cart.IncompleteProductsAreAdded` | utils/functionalties/scenario1.js:64-86 | Adding a product with only a name and one with only an id and a price to an empty cart yields two items, with price 0 and name 'Unknown Product' filled in. |
| `Cart.LineTotal` | utils/functionalties/scenario1.js:104 | A line total is the item's price times its quantity when both are numbers, NaN when either is absent, and always a number or NaN. |
| `Cart.CartTotal` | utils/functionalties/scenario1.js:102-106 | The reference total is a number or NaN, and is 0 for an empty cart. |
| `Cart.ReduceComputesCartTotal` | utils/functionalties/scenario1.js:102-106 | The `reduce` with `add(acc, price * quantity)` returns its seed plus the sum of the line totals. It returns NaN as soon as one line is not a number. |
| `Cart.UpdateItems` | utils/functionalties/scenario1.js:89-101 | Without a matching item, the cart is unchanged. Otherwise only the first item with a `===` id changes, its quantity becoming `add(quantity, change)`. When that quantity is `<= 0` the item is removed and the other items keep their order. |
| `Cart.InteractWithCart` | utils/functionalties/scenario1.js:89-112 | The returned items are the updated cart. The total is the sum of price times quantity over those items, and 0 for an empty cart. |
| `Cart.InteractWithNumbers` | utils/functionalties/scenario1.js:92-100 | With a numeric quantity and change, the item is removed exactly when their sum is at most 0. Otherwise its quantity becomes that sum. |
| `Cart.RemovingAllUnitsEmptiesCart` | utils/functionalties/scenario1.js:89-112 | Removing all 3 units of the only item gives an empty cart with total 0. |
| `Cart.DecrementKeepsItem` | utils/functionalties/scenario1.js:89-112 | Lowering a quantity of 3 by 1 keeps the item with quantity 2 and total 21.98. |
| `Producer.MatchesCredential` | utils/functionalties/scenario2.js:16 | The credential test throws exactly on a nullish record. Otherwise it holds exactly when both email and password are `eq` to the inputs. |
| `Producer.LoginThrows` | utils/functionalties/scenario2.js:15-17 | Filtering the credentials throws exactly when some record is nullish. |
| `Producer.LoginFound` | utils/functionalties/scenario2.js:15-23 | The success test on the filtered records holds exactly when the first matching record has no `length` of 0. |
| `Producer.ProducerLogin` | utils/functionalties/scenario2.js:10-24 | A falsy email or password fails without looking at the credentials. Otherwise login throws exactly on a nullish record. Success means the first record matching both fields has no `length` of 0, and only the two fixed messages are returned. |
| `Producer.LoginMatchesSomeRecord` | utils/functionalties/scenario2.js:15-23 | For plain credential records, login succeeds exactly when some record matches both email and password. |
| `Producer.LoginWithoutCredentialsFails` | utils/functionalties/scenario2.js:15-23 | Without a credential list, login fails with 'Invalid credentials'. |
| `Producer.BuildProduct` | utils/functionalties/scenario2.js:36-45 | The new product has the input's fields plus name, price and quantity. The name is capitalized, the price is parsed and the quantity is 1, and every other field is copied unchanged. |
| `Producer.AddNewProduct` | utils/functionalties/scenario2.js:28-53 | Nullish info throws. A missing name, category or price returns the database untouched with 'Missing required fields.'. Otherwise the result is the compacted database followed by exactly one new product. |
| `Producer.RequestTransmission` | utils/functionalties/scenario2.js:56-67 | A nullish argument throws. Otherwise the call succeeds exactly when name, description, category and price are all truthy, with the matching message. |
| `Producer.FirstFailure` | utils/functionalties/scenario2.js:70-86 | A sequence of checks is valid exactly when every check passes. Otherwise it reports the message of the first failing check. |
| `Producer.PriceRuleMeaning` | utils/functionalties/scenario2.js:76 | The price rule fails exactly the prices that are not numbers greater than 0. |
| `Producer.ValidateProductInfo` | utils/functionalties/scenario2.js:70-86 | A nullish argument throws. Otherwise the result is the first failing rule among: all four fields present; price a number greater than 0; category array-like. |
| `Producer.StringPriceIsRejected` | utils/functionalties/scenario2.js:76-78 | A price given as a string, even a numeric one, is reported as an invalid price. |
| `Producer.StringCategoryIsRejected` | utils/functionalties/scenario2.js:80-82 | A category given as a string is reported as not array-like. |
| `Producer.WordPriceIsTransmitted` | utils/functionalties/scenario2.js:56-67 | Data whose name, description and category are truthy and whose price is any non-empty string, numeric or not, is transmitted. |
| `Producer.ValidProductIsTransmitted` | utils/functionalties/scenario2.js:56-86 | Whatever `validateProductInfo` accepts, `requestTransmission` accepts. |
| `Producer.AddProductToDatabase` | utils/functionalties/scenario2.js:89-93 | Exactly one insert of the updated product into 'products' is appended to the log. The quantity becomes `add(quantity, 1)`, so an absent quantity becomes 1 and a number n becomes n + 1. No other field changes. |
| `Producer.StoringTwiceCountsTwo` | utils/functionalties/scenario2.js:89-93 | Storing the same details twice raises a numeric or absent quantity by 2 and logs two inserts in order. |
| `Producer.ShowProductAdditionConfirmation` | utils/functionalties/scenario2.js:97-100 | The confirmation is the product's name when it has a defined one, and 'New Product' otherwise, including for nullish details. |

## Left out

- `searchProduct`, `checkout`, `makePayment` and `confirmOrderPlacement` in scenario 1 are not part of this model. Neither are the category, `compact` and `capitalize` stages of `filterSearchResults`.
- The lodash utilities (`filter`, `reduce`, `compact`, `get`, `castArray`, `add`, `eq`, `isArrayLikeObject`, `capitalize`) are not part of this model's sources. They are modelled from their documented behaviour.
- `filter`, `reduce` and `compact` visit arrays and the characters of strings only. Plain objects and array-like objects with a `length` visit nothing, because a plain object is a map from keys to values with no key order to visit them in. lodash visits an object's own values, so `reduce({a: 1, b: 2, c: 3}, (s, n) => s + n, 0)` is 6 in the repository's test, where the model's `reduce` would return the seed.
- `get` is modelled for a single-key path only.
- Coercion.Add: lodash `add` concatenates when either operand is a string. The model coerces both operands to numbers instead, because the repository's test fixes `add('4', '3')` to be 7.
- `capitalize` and the global `parseFloat` are parameters of `Producer.AddNewProduct`. Their string semantics are not modelled.
- Numbers are exact reals plus NaN. Infinity, -0, floating-point rounding and the exponent format of Number-to-String are not modelled. In particular the strings "Infinity", "+Infinity" and "-Infinity" convert to NaN in `Coercion.ToNumber`, where JavaScript gives ±Infinity; so a string price "Infinity" passes `>= minPrice` in the source and fails in `Catalog.PriceAtLeast`.
- ToString writes at most 20 fraction digits.
- Two arrays or objects are never `===` to each other, since values carry no object identity.
- In-place mutation and aliasing are not modelled. The cart and the product details are passed in and returned, so another reference to the same cart or item seeing the change is not modelled.
- A cart that is not an array, such as `{}`, where `find` is not a function, is not modelled; nor is a cart holding non-object items, where `item.id` throws on `null`.
- Producer.AddProductToDatabase: the details are a plain-object record, so nullish or primitive details, for which the source throws, are not modelled. The database is modelled only as the log of its `insert` calls.
- Property reads give the fields of plain objects and the `length` of arrays and strings. Array indices, methods and other built-in properties read as `undefined`.
- Coercion.AtLeast: strings are sequences of Unicode scalar values and are ordered by scalar value, where JavaScript orders them by UTF-16 code units. The two orders agree on strings within the Basic Multilingual Plane. They can differ otherwise: `"\u{10000}" >= "\uFFFF"` is false in JavaScript and true here. `Coercion.StringLess` and `Coercion.AtMost` share this.
- JsValue.Prop: the `length` of a string counts Unicode scalar values, where JavaScript counts UTF-16 code units, so a character outside the Basic Multilingual Plane counts once instead of twice.
- JsValue.Elements: `filter`, `reduce` and `compact` visit a string one scalar value at a time, where JavaScript visits one UTF-16 code unit at a time.

=== FILE: cart.dfy ===
/** The shopping cart (scenario 1, steps 4 and 5): `addToCart` and
    `interactWithCart`. The source mutates the cart array and its items in
    place and returns it; here a cart goes in and the updated cart comes out. */
module Cart {
  import opened JsValue
  import opened Coercion
  import opened Collections
  import opened ProductFields

  /** A shopping cart: an array of plain-object items. */
  type Cart = seq<Record>

  /** The test `item.id === productId` (also `get(item, 'id') === productId`). */
  predicate HasId(item: Record, id: Value) {
    StrictEquals(Field(item, IdKey), id)
  }

  /** `findIndex`/`find` on the item id: the position of the first item whose
      id is strictly equal to `id`, if any. */
  function FirstMatch(cart: Cart, id: Value): (r: Option<nat>)
    ensures r.Some? ==> r.value < |cart| && HasId(cart[r.value], id)
    ensures r.Some? ==> forall j :: 0 <= j < r.value ==> !HasId(cart[j], id)
    ensures r.None? <==> forall j :: 0 <= j < |cart| ==> !HasId(cart[j], id)
  {
    FirstIndex(cart, (item: Record) => HasId(item, id))
  }

  /** Two items that agree on every field except possibly `quantity`. */
  predicate SameExceptQuantity(a: Record, b: Record) {
    AgreeExcept(a, b, QuantityKey)
  }

  // ---------------------------------------------------------------------
  // addToCart

  /** `get(product, 'id')`. */
  function ProductId(product: Value): Value {
    Get(product, IdKey, Undefined)
  }

  /** The item pushed for a product whose id is not in the cart. */
  function NewItem(product: Value): (item: Record)
    ensures item.Keys == {IdKey, NameKey, PriceKey, QuantityKey}
    ensures item[IdKey] == ProductId(product)
    ensures item[QuantityKey] == Num(1.0)
    ensures Prop(product, NameKey) == Undefined ==> item[NameKey] == Str("Unknown Product")
    ensures Prop(product, NameKey) != Undefined ==> item[NameKey] == Prop(product, NameKey)
    ensures Prop(product, PriceKey) == Undefined ==> item[PriceKey] == Num(0.0)
    ensures Prop(product, PriceKey) != Undefined ==> item[PriceKey] == Prop(product, PriceKey)
  {
    map[IdKey := ProductId(product),
        NameKey := Get(product, NameKey, Str("Unknown Product")),
        PriceKey := Get(product, PriceKey, Num(0.0)),
        QuantityKey := Num(1.0)]
  }

  /** One iteration of the `forEach` in `addToCart`: the first item with the
      product's id gets its quantity raised by one (`add(quantity, 1)`) and
      nothing else changes; without such an item, a new item is appended. */
  function AddOne(cart: Cart, product: Value): (r: Cart)
    ensures FirstMatch(cart, ProductId(product)).None? ==> r == cart + [NewItem(product)]
    ensures FirstMatch(cart, ProductId(product)).Some? ==>
              var i := FirstMatch(cart, ProductId(product)).value;
              && |r| == |cart|
              && SameExceptQuantity(r[i], cart[i])
              && QuantityKey in r[i]
              && r[i][QuantityKey] == Add(Field(cart[i], QuantityKey), Num(1.0))
              && forall j :: 0 <= j < |cart| && j != i ==> r[j] == cart[j]
  {
    match FirstMatch(cart, ProductId(product))
    case Some(i) =>
      cart[i := cart[i][QuantityKey := Add(Field(cart[i], QuantityKey), Num(1.0))]]
    case None =>
      cart + [NewItem(product)]
  }

  /** The appended items (from position `base` on) have ids that are not
      strictly equal to the id of any item before them. */
  predicate AppendedIdsFresh(r: Cart, base: nat) {
    forall i, j :: 0 <= i < j < |r| && base <= j ==> !StrictEquals(Field(r[i], IdKey), Field(r[j], IdKey))
  }

  /** Every product whose id is strictly equal to itself (anything but NaN,
      an array or an object) has an item carrying that id. */
  predicate HoldsEachProduct(r: Cart, products: seq<Value>) {
    forall p :: p in products && StrictEquals(ProductId(p), ProductId(p)) ==>
      exists j :: 0 <= j < |r| && HasId(r[j], ProductId(p))
  }

  /** Every item from position `base` on is, up to its quantity, the item
      built for one of the products. */
  predicate AppendedAreNewItems(r: Cart, base: nat, products: seq<Value>) {
    forall k :: base <= k < |r| ==> exists p :: p in products && SameExceptQuantity(r[k], NewItem(p))
  }

  /** Every item of `cart` whose id is strictly equal to no product's id is
      still in place in `r`, unchanged. */
  predicate KeepsUnmatched(r: Cart, cart: Cart, products: seq<Value>) {
    forall j :: 0 <= j < |cart| && j < |r| && (forall p :: p in products ==> !HasId(cart[j], ProductId(p))) ==>
      r[j] == cart[j]
  }

  /** The `forEach` over the products to add, in order. The cart keeps its
      items in place, changing at most their quantities, and grows by at most
      one item per product; every selected product ends up with an item
      carrying its id, and every appended item is the item built for one of
      the products. An appended item's id is never strictly equal to an
      earlier item's id, so a second product with an id added earlier in the
      same call raises that item's quantity instead of appending again. An
      item that no product's id matches is left exactly as it was. */
  function AddEach(cart: Cart, products: seq<Value>): (r: Cart)
    ensures |cart| <= |r| <= |cart| + |products|
    ensures forall j :: 0 <= j < |cart| ==> SameExceptQuantity(r[j], cart[j])
    ensures AppendedIdsFresh(r, |cart|)
    ensures HoldsEachProduct(r, products)
    ensures AppendedAreNewItems(r, |cart|, products)
    ensures KeepsUnmatched(r, cart, products)
    decreases |products|
  {
    if products == [] then cart
    else
      var next := AddOne(cart, products[0]);
      var r := AddEach(next, products[1..]);
      AddOneAppendsFreshId(cart, products[0]);
      AddEachKeepsFreshIds(cart, next, r);
      AddOnePlacesProduct(cart, products[0]);
      AddEachKeepsPlacedProducts(cart, products, next, r);
      AddOneKeepsUnmatched(cart, products[0]);
      AddEachKeepsUnmatched(cart, products, next, r);
      r
  }

  lemma AddOneAppendsFreshId(cart: Cart, product: Value)
    ensures |cart| <= |AddOne(cart, product)| <= |cart| + 1
    ensures forall j :: 0 <= j < |cart| ==> SameExceptQuantity(AddOne(cart, product)[j], cart[j])
    ensures AppendedIdsFresh(AddOne(cart, product), |cart|)
  {
  }

  /** After one step the product has an item carrying its id, and the only
      item that can be appended is the one built for it. */
  lemma AddOnePlacesProduct(cart: Cart, product: Value)
    ensures StrictEquals(ProductId(product), ProductId(product)) ==>
              exists j :: 0 <= j < |AddOne(cart, product)| && HasId(AddOne(cart, product)[j], ProductId(product))
    ensures |AddOne(cart, product)| > |cart| ==> AddOne(cart, product)[|cart|] == NewItem(product)
  {
    var r := AddOne(cart, product);
    match FirstMatch(cart, ProductId(product))
    case Some(i) =>
      AgreeExceptKeepsOthers(r[i], cart[i], QuantityKey, IdKey);
      assert HasId(r[i], ProductId(product));
    case None =>
      assert r[|cart|] == NewItem(product);
  }

  /** The later steps keep every id in place, so the products placed by the
      first step stay placed, and what the first step appended stays the
      item built for its product. */
  lemma AddEachKeepsPlacedProducts(cart: Cart, products: seq<Value>, next: Cart, r: Cart)
    requires products != [] && next == AddOne(cart, products[0])
    requires |cart| <= |next| <= |cart| + 1 <= |r| + 1 && |next| <= |r|
    requires |next| > |cart| ==> next[|cart|] == NewItem(products[0])
    requires StrictEquals(ProductId(products[0]), ProductId(products[0])) ==>
               exists j :: 0 <= j < |next| && HasId(next[j], ProductId(products[0]))
    requires forall j :: 0 <= j < |next| ==> SameExceptQuantity(r[j], next[j])
    requires HoldsEachProduct(r, products[1..])
    requires AppendedAreNewItems(r, |next|, products[1..])
    ensures HoldsEachProduct(r, products)
    ensures AppendedAreNewItems(r, |cart|, products)
  {
    var p0 := products[0];
    forall p | p in products && StrictEquals(ProductId(p), ProductId(p))
      ensures exists j :: 0 <= j < |r| && HasId(r[j], ProductId(p))
    {
      if p == p0 {
        var j :| 0 <= j < |next| && HasId(next[j], ProductId(p0));
        AgreeExceptKeepsOthers(r[j], next[j], QuantityKey, IdKey);
        assert HasId(r[j], ProductId(p));
      } else {
        assert p in products[1..];
      }
    }
    forall k | |cart| <= k < |r|
      ensures exists p :: p in products && SameExceptQuantity(r[k], NewItem(p))
    {
      if k < |next| {
        assert k == |cart| && next[k] == NewItem(p0);
        assert SameExceptQuantity(r[k], NewItem(p0));
        assert p0 in products;
      } else {
        assert |next| <= k < |r|;
        var p :| p in products[1..] && SameExceptQuantity(r[k], NewItem(p));
        assert p in products;
      }
    }
  }

  /** One step changes no item whose id differs from the product's. */
  lemma AddOneKeepsUnmatched(cart: Cart, product: Value)
    ensures |cart| <= |AddOne(cart, product)|
    ensures forall j :: 0 <= j < |cart| && !HasId(cart[j], ProductId(product)) ==>
              AddOne(cart, product)[j] == cart[j]
  {
  }

  /** An item that neither the first product nor the later ones match is
      unchanged by the first step and then by the later steps. */
  lemma AddEachKeepsUnmatched(cart: Cart, products: seq<Value>, next: Cart, r: Cart)
    requires products != [] && |cart| <= |next| <= |r|
    requires forall j :: 0 <= j < |cart| && !HasId(cart[j], ProductId(products[0])) ==> next[j] == cart[j]
    requires KeepsUnmatched(r, next, products[1..])
    ensures KeepsUnmatched(r, cart, products)
  {
    forall j | 0 <= j < |cart| && j < |r| && (forall p :: p in products ==> !HasId(cart[j], ProductId(p)))
      ensures r[j] == cart[j]
    {
      assert products[0] in products;
      assert next[j] == cart[j];
      forall p | p in products[1..]
        ensures !HasId(next[j], ProductId(p))
      {
        assert p in products;
      }
    }
  }

  /** Freshness of the ids appended in one step and in the later steps
      combines into freshness of everything appended. */
  lemma AddEachKeepsFreshIds(cart: Cart, next: Cart, r: Cart)
    requires |cart| <= |next| <= |r|
    requires forall j :: 0 <= j < |cart| ==> SameExceptQuantity(next[j], cart[j])
    requires AppendedIdsFresh(next, |cart|)
    requires forall j :: 0 <= j < |next| ==> SameExceptQuantity(r[j], next[j])
    requires AppendedIdsFresh(r, |next|)
    ensures forall j :: 0 <= j < |cart| ==> SameExceptQuantity(r[j], cart[j])
    ensures AppendedIdsFresh(r, |cart|)
  {
    forall i, j | 0 <= i < j < |r| && |cart| <= j
      ensures !StrictEquals(Field(r[i], IdKey), Field(r[j], IdKey))
    {
      if j < |next| {
        AgreeExceptKeepsOthers(r[i], next[i], QuantityKey, IdKey);
        AgreeExceptKeepsOthers(r[j], next[j], QuantityKey, IdKey);
      }
    }
  }

  /** `addToCart(selectedProducts, shoppingCart)`: `castArray` the selection,
      then add each product in order. */
  function AddToCart(selected: Value, cart: Cart): (r: Cart)
    ensures |cart| <= |r| <= |cart| + |CastArray(selected)|
    ensures forall j :: 0 <= j < |cart| ==> SameExceptQuantity(r[j], cart[j])
    ensures AppendedIdsFresh(r, |cart|)
    ensures HoldsEachProduct(r, CastArray(selected))
    ensures AppendedAreNewItems(r, |cart|, CastArray(selected))
    ensures KeepsUnmatched(r, cart, CastArray(selected))
    ensures selected == List([]) ==> r == cart
  {
    AddEach(cart, CastArray(selected))
  }

  // ---------------------------------------------------------------------
  // Quantities under addToCart

  predicate NumericQuantity(item: Record) {
    Field(item, QuantityKey).Num? || Field(item, QuantityKey) == Undefined
  }

  /** The number of units in the cart. */
  function TotalQuantity(cart: Cart): real {
    if cart == [] then 0.0 else TotalQuantity(cart[..|cart| - 1]) + QuantityOf(cart[|cart| - 1])
  }

  lemma {:induction false} TotalQuantityUpdate(cart: Cart, i: nat, item: Record)
    requires i < |cart|
    ensures TotalQuantity(cart[i := item]) == TotalQuantity(cart) - QuantityOf(cart[i]) + QuantityOf(item)
  {
    var n := |cart|;
    if i < n - 1 {
      TotalQuantityUpdate(cart[..n - 1], i, item);
      assert cart[i := item][..n - 1] == cart[..n - 1][i := item];
    } else {
      assert cart[i := item][..n - 1] == cart[..n - 1];
    }
  }

  lemma AddOneCountsOneUnit(cart: Cart, product: Value)
    requires forall j :: 0 <= j < |cart| ==> NumericQuantity(cart[j])
    ensures forall j :: 0 <= j < |AddOne(cart, product)| ==> NumericQuantity(AddOne(cart, product)[j])
    ensures TotalQuantity(AddOne(cart, product)) == TotalQuantity(cart) + 1.0
  {
    var r := AddOne(cart, product);
    match FirstMatch(cart, ProductId(product))
    case Some(i) =>
      var bumped := cart[i][QuantityKey := Add(Field(cart[i], QuantityKey), Num(1.0))];
      assert r == cart[i := bumped];
      assert Field(bumped, QuantityKey) == Num(QuantityOf(cart[i]) + 1.0);
      TotalQuantityUpdate(cart, i, bumped);
    case None =>
      var item := NewItem(product);
      assert r == cart + [item];
      assert r[..|r| - 1] == cart;
      assert QuantityOf(item) == 1.0 && NumericQuantity(item);
  }

  /** With numeric (or absent) quantities, every selected product adds
      exactly one unit to the cart, whether it raises an existing item's
      quantity or appends a new item. */
  lemma {:induction false} AddEachCountsEachProduct(cart: Cart, products: seq<Value>)
    requires forall j :: 0 <= j < |cart| ==> NumericQuantity(cart[j])
    ensures forall j :: 0 <= j < |AddEach(cart, products)| ==> NumericQuantity(AddEach(cart, products)[j])
    ensures TotalQuantity(AddEach(cart, products)) == TotalQuantity(cart) + |products| as real
    decreases |products|
  {
    if products != [] {
      AddOneCountsOneUnit(cart, products[0]);
      AddEachCountsEachProduct(AddOne(cart, products[0]), products[1..]);
    }
  }

  lemma AddToCartCountsEachProduct(selected: Value, cart: Cart)
    requires forall j :: 0 <= j < |cart| ==> NumericQuantity(cart[j])
    ensures TotalQuantity(AddToCart(selected, cart)) == TotalQuantity(cart) + |CastArray(selected)| as real
  {
    AddEachCountsEachProduct(cart, CastArray(selected));
  }

  /** The number of `products` whose id finds item `k` of `cart`: those whose
      first item with a strictly equal id is at position `k`. */
  function MatchCount(cart: Cart, products: seq<Value>, k: nat): (n: nat)
    ensures n <= |products|
    ensures (forall p :: p in products ==> FirstMatch(cart, ProductId(p)) != Some(k)) ==> n == 0
  {
    if products == [] then 0
    else (if FirstMatch(cart, ProductId(products[0])) == Some(k) then 1 else 0) + MatchCount(cart, products[1..], k)
  }

  /** An item whose id is strictly equal to itself (anything but NaN, an
      array or an object), so that a product can find it. */
  predicate SelfEqualId(item: Record) {
    StrictEquals(Field(item, IdKey), Field(item, IdKey))
  }

  /** The first item with id `id` is at `j` exactly when the item at `j` has
      it and no earlier one does. */
  lemma FirstMatchAt(cart: Cart, id: Value, j: nat)
    requires j < |cart|
    ensures FirstMatch(cart, id) == Some(j) <==>
              HasId(cart[j], id) && forall i :: 0 <= i < j ==> !HasId(cart[i], id)
  {
  }

  /** Two carts whose first `|a|` items carry the same ids agree on which of
      those items a given id finds first. */
  lemma FirstMatchStable(a: Cart, b: Cart, id: Value, j: nat)
    requires j < |a| <= |b|
    requires forall i :: 0 <= i < |a| ==> Field(b[i], IdKey) == Field(a[i], IdKey)
    ensures FirstMatch(b, id) == Some(j) <==> FirstMatch(a, id) == Some(j)
  {
    FirstMatchAt(a, id, j);
    FirstMatchAt(b, id, j);
    assert forall i :: 0 <= i <= j ==> (HasId(b[i], id) <==> HasId(a[i], id));
  }

  lemma {:induction false} MatchCountStable(a: Cart, b: Cart, products: seq<Value>, j: nat)
    requires j < |a| <= |b|
    requires forall i :: 0 <= i < |a| ==> Field(b[i], IdKey) == Field(a[i], IdKey)
    ensures MatchCount(b, products, j) == MatchCount(a, products, j)
    decreases |products|
  {
    if products != [] {
      FirstMatchStable(a, b, ProductId(products[0]), j);
      MatchCountStable(a, b, products[1..], j);
    }
  }

  /** Items that agree except in quantity carry the same ids. */
  lemma KeepsIds(a: Cart, b: Cart)
    requires |a| <= |b|
    requires forall i :: 0 <= i < |a| ==> SameExceptQuantity(b[i], a[i])
    ensures forall i :: 0 <= i < |a| ==> Field(b[i], IdKey) == Field(a[i], IdKey)
  {
    forall i | 0 <= i < |a|
      ensures Field(b[i], IdKey) == Field(a[i], IdKey)
    {
      AgreeExceptKeepsOthers(b[i], a[i], QuantityKey, IdKey);
    }
  }

  /** Only an id strictly equal to itself is strictly equal to anything. */
  lemma StrictEqualsSelf(a: Value, b: Value)
    requires StrictEquals(a, b)
    ensures StrictEquals(a, a) && StrictEquals(b, b)
  {
  }

  /** Item by item, `addToCart`'s loop raises each quantity by the number of
      selected products that find the item in the resulting cart: an item
      already in the cart (with a numeric or absent quantity) gains one unit
      per product that finds it, and an appended item with a self-equal id
      holds one unit per product that finds it. */
  lemma {:induction false} AddEachCountsPerItem(cart: Cart, products: seq<Value>, k: nat)
    requires k < |AddEach(cart, products)|
    requires k < |cart| ==> NumericQuantity(cart[k])
    requires k >= |cart| ==> SelfEqualId(AddEach(cart, products)[k])
    ensures var r := AddEach(cart, products);
            && NumericQuantity(r[k])
            && QuantityOf(r[k]) == (if k < |cart| then QuantityOf(cart[k]) else 0.0) + MatchCount(r, products, k) as real
    decreases |products|, 1
  {
    if products == [] {
      assert AddEach(cart, products) == cart;
    } else if k < |cart| {
      CountsAtOldItem(cart, products, k);
    } else if k < |AddOne(cart, products[0])| {
      CountsAtItemAppendedFirst(cart, products, k);
    } else {
      CountsAtItemAppendedLater(cart, products, k);
    }
  }

  /** The products after the first: `MatchCount` over the whole list adds
      the first product's find to theirs. */
  lemma MatchCountUnfold(r: Cart, products: seq<Value>, k: nat)
    requires products != []
    ensures MatchCount(r, products, k)
            == (if FirstMatch(r, ProductId(products[0])) == Some(k) then 1 else 0) + MatchCount(r, products[1..], k)
  {
  }

  lemma {:induction false} CountsAtOldItem(cart: Cart, products: seq<Value>, k: nat)
    requires products != [] && k < |cart| && NumericQuantity(cart[k])
    ensures var r := AddEach(cart, products);
            && k < |r|
            && NumericQuantity(r[k])
            && QuantityOf(r[k]) == QuantityOf(cart[k]) + MatchCount(r, products, k) as real
    decreases |products|, 0
  {
    var id0 := ProductId(products[0]);
    var next := AddOne(cart, products[0]);
    var r := AddEach(next, products[1..]);
    assert AddEach(cart, products) == r;
    AddOneStepAtOldItem(cart, products[0], k);
    AddEachCountsPerItem(next, products[1..], k);
    AddOneAppendsFreshId(cart, products[0]);
    KeepsIds(cart, next);
    KeepsIds(next, r);
    FirstMatchStable(cart, r, id0, k);
    MatchCountUnfold(r, products, k);
  }

  lemma {:induction false} CountsAtItemAppendedFirst(cart: Cart, products: seq<Value>, k: nat)
    requires products != [] && |cart| <= k < |AddOne(cart, products[0])|
    requires SelfEqualId(AddEach(cart, products)[k])
    ensures var r := AddEach(cart, products);
            && NumericQuantity(r[k])
            && QuantityOf(r[k]) == MatchCount(r, products, k) as real
    decreases |products|, 0
  {
    var id0 := ProductId(products[0]);
    var next := AddOne(cart, products[0]);
    var r := AddEach(next, products[1..]);
    assert AddEach(cart, products) == r;
    AddOneAppendsFreshId(cart, products[0]);
    AddOneStepAtNewItem(cart, products[0]);
    assert k == |cart|;
    AddEachCountsPerItem(next, products[1..], k);
    KeepsIds(next, r);
    FoundAtNewItem(next, r, id0, k);
    MatchCountUnfold(r, products, k);
  }

  lemma {:induction false} CountsAtItemAppendedLater(cart: Cart, products: seq<Value>, k: nat)
    requires products != [] && |AddOne(cart, products[0])| <= k < |AddEach(cart, products)|
    requires SelfEqualId(AddEach(cart, products)[k])
    ensures var r := AddEach(cart, products);
            && NumericQuantity(r[k])
            && QuantityOf(r[k]) == MatchCount(r, products, k) as real
    decreases |products|, 0
  {
    var id0 := ProductId(products[0]);
    var next := AddOne(cart, products[0]);
    var r := AddEach(next, products[1..]);
    assert AddEach(cart, products) == r;
    AddEachCountsPerItem(next, products[1..], k);
    if StrictEquals(id0, id0) {
      AddOnePlacesProduct(cart, products[0]);
      var j :| 0 <= j < |next| && HasId(next[j], id0);
      KeepsIds(next, r);
      assert HasId(r[j], id0);
      FoundEarlier(r, id0, j, k);
    } else {
      NothingFindsUnequalId(r, id0);
    }
    MatchCountUnfold(r, products, k);
  }

  /** An id carried at `j` is not first found at any later position. */
  lemma FoundEarlier(r: Cart, id: Value, j: nat, k: nat)
    requires j < k < |r| && HasId(r[j], id)
    ensures FirstMatch(r, id) != Some(k)
  {
  }

  /** An id not strictly equal to itself finds no item. */
  lemma NothingFindsUnequalId(r: Cart, id: Value)
    requires !StrictEquals(id, id)
    ensures FirstMatch(r, id).None?
  {
    forall i | 0 <= i < |r|
      ensures !HasId(r[i], id)
    {
      if HasId(r[i], id) {
        StrictEqualsSelf(Field(r[i], IdKey), id);
      }
    }
  }

  /** A product whose id was appended at `k`, and which nothing before `k`
      carries, still finds `k` once later items have been added. */
  lemma FoundAtNewItem(next: Cart, r: Cart, id: Value, k: nat)
    requires k < |next| <= |r|
    requires forall i :: 0 <= i < |next| ==> Field(r[i], IdKey) == Field(next[i], IdKey)
    requires Field(next[k], IdKey) == id && StrictEquals(id, id)
    requires forall i :: 0 <= i < k ==> !HasId(next[i], id)
    ensures FirstMatch(r, id) == Some(k)
  {
    FirstMatchAt(r, id, k);
  }

  /** One step at an item already in the cart: it gains a unit exactly when
      the product finds it, and its quantity stays numeric. */
  lemma AddOneStepAtOldItem(cart: Cart, product: Value, k: nat)
    requires k < |cart| && NumericQuantity(cart[k])
    ensures k < |AddOne(cart, product)|
    ensures NumericQuantity(AddOne(cart, product)[k])
    ensures QuantityOf(AddOne(cart, product)[k])
            == QuantityOf(cart[k]) + (if FirstMatch(cart, ProductId(product)) == Some(k) then 1.0 else 0.0)
  {
    if FirstMatch(cart, ProductId(product)) == Some(k) {
      assert Field(AddOne(cart, product)[k], QuantityKey) == Num(QuantityOf(cart[k]) + 1.0);
    }
  }

  /** One step that appends: the new item holds one unit and carries the
      product's id, which nothing before it carries. */
  lemma AddOneStepAtNewItem(cart: Cart, product: Value)
    requires |AddOne(cart, product)| > |cart|
    ensures var next := AddOne(cart, product);
            && next[|cart|] == NewItem(product)
            && NumericQuantity(next[|cart|]) && QuantityOf(next[|cart|]) == 1.0
            && Field(next[|cart|], IdKey) == ProductId(product)
            && forall i :: 0 <= i < |cart| ==> !HasId(next[i], ProductId(product))
  {
  }

  /** `===` between primitives is an equivalence: a value strictly equal
      to `c` differs from anything that is not. */
  lemma StrictEqualsApart(a: Value, b: Value, c: Value)
    requires !StrictEquals(a, b) && StrictEquals(b, c)
    ensures !StrictEquals(a, c)
  {
  }

  /** An appended item is found exactly by the ids strictly equal to its
      own: no earlier item carries such an id. So the count of
      `AddEachCountsPerItem` at an appended item is the number of products
      whose id is `===` to the item's id. */
  lemma AppendedFoundByEqualIds(cart: Cart, products: seq<Value>, k: nat, id: Value)
    requires |cart| <= k < |AddEach(cart, products)|
    ensures FirstMatch(AddEach(cart, products), id) == Some(k) <==> HasId(AddEach(cart, products)[k], id)
  {
    var r := AddEach(cart, products);
    FirstMatchAt(r, id, k);
    if HasId(r[k], id) {
      forall i | 0 <= i < k
        ensures !HasId(r[i], id)
      {
        StrictEqualsApart(Field(r[i], IdKey), Field(r[k], IdKey), id);
      }
    }
  }

  /** `addToCart` item by item: see `AddEachCountsPerItem`. */
  lemma AddToCartCountsPerItem(selected: Value, cart: Cart, k: nat)
    requires k < |AddToCart(selected, cart)|
    requires k < |cart| ==> NumericQuantity(cart[k])
    requires k >= |cart| ==> SelfEqualId(AddToCart(selected, cart)[k])
    ensures var r := AddToCart(selected, cart);
            && NumericQuantity(r[k])
            && QuantityOf(r[k]) == (if k < |cart| then QuantityOf(cart[k]) else 0.0)
                                   + MatchCount(r, CastArray(selected), k) as real
  {
    AddEachCountsPerItem(cart, CastArray(selected), k);
  }

  /** For an item already in the cart, the products that find it in the
      resulting cart are those that find it in the original cart. */
  lemma AddToCartFindsOldItems(selected: Value, cart: Cart, k: nat)
    requires k < |cart|
    ensures MatchCount(AddToCart(selected, cart), CastArray(selected), k) == MatchCount(cart, CastArray(selected), k)
  {
    KeepsIds(cart, AddToCart(selected, cart));
    MatchCountStable(cart, AddToCart(selected, cart), CastArray(selected), k);
  }

  /** Selecting the same new product twice in one call appends one item
      with quantity 2, provided the id is a value strictly equal to itself
      (anything but NaN, an array or an object). */
  lemma SameProductTwiceAppendsOnce(product: Value, cart: Cart)
    requires StrictEquals(ProductId(product), ProductId(product))
    requires FirstMatch(cart, ProductId(product)).None?
    ensures AddToCart(List([product, product]), cart)
            == cart + [NewItem(product)[QuantityKey := Num(2.0)]]
  {
    var once := AddOne(cart, product);
    assert once == cart + [NewItem(product)];
    assert HasId(once[|cart|], ProductId(product));
    assert FirstMatch(once, ProductId(product)) == Some(|cart|);
    var twice := AddOne(once, product);
    assert twice == once[|cart| := NewItem(product)[QuantityKey := Num(2.0)]];
    assert twice == cart + [NewItem(product)[QuantityKey := Num(2.0)]];
    assert [product, product][1..] == [product];
    assert AddEach(cart, [product, product]) == AddEach(once, [product]);
    assert AddEach(once, [product]) == AddEach(twice, []);
  }

  // ---------------------------------------------------------------------
  // interactWithCart

  /** The result object `{ cartItems, totalPrice }`. */
  datatype CartView = CartView(cartItems: Cart, totalPrice: Value)

  /** `item.price * item.quantity`. */
  function LineTotal(item: Record): (v: Value)
    ensures v.Num? || v.NaN?
    ensures Field(item, PriceKey).Num? && Field(item, QuantityKey).Num? ==>
              v == Num(Field(item, PriceKey).n * Field(item, QuantityKey).n)
    ensures Field(item, PriceKey) == Undefined || Field(item, QuantityKey) == Undefined ==> v == NaN
  {
    Times(Field(item, PriceKey), Field(item, QuantityKey))
  }

  predicate AllLinesNumeric(cart: Cart) {
    forall i :: 0 <= i < |cart| ==> LineTotal(cart[i]).Num?
  }

  /** The sum of the numeric line totals. */
  function LineSum(cart: Cart): real {
    if cart == [] then 0.0
    else (if LineTotal(cart[0]).Num? then LineTotal(cart[0]).n else 0.0) + LineSum(cart[1..])
  }

  /** The cart total: the sum of `price × quantity` over the items, NaN when
      some line is not a number, and 0 for an empty cart. */
  function CartTotal(cart: Cart): (v: Value)
    ensures v.Num? || v.NaN?
    ensures cart == [] ==> v == Num(0.0)
  {
    if AllLinesNumeric(cart) then Num(LineSum(cart)) else NaN
  }

  /** The iteratee `(acc, item) => add(acc, item.price * item.quantity)`. */
  function TotalStep(): (Value, Record) -> Result<Value> {
    (acc: Value, item: Record) => Ok(Add(acc, LineTotal(item)))
  }

  lemma CartTotalUnfold(cart: Cart)
    requires cart != []
    ensures CartTotal(cart) == Plus(LineTotal(cart[0]), CartTotal(cart[1..]))
  {
    var rest := cart[1..];
    if AllLinesNumeric(cart) {
      assert LineTotal(cart[0]).Num?;
      forall i | 0 <= i < |rest|
        ensures LineTotal(rest[i]).Num?
      {
        assert rest[i] == cart[i + 1];
      }
    }
  }

  /** One step of the `reduce`: the seed absorbs the first line total. */
  lemma ReduceStep(cart: Cart, acc: Value)
    requires cart != []
    ensures Reduce(cart, TotalStep(), acc) == Reduce(cart[1..], TotalStep(), Add(acc, LineTotal(cart[0])))
  {
    assert TotalStep()(acc, cart[0]) == Ok(Add(acc, LineTotal(cart[0])));
  }

  lemma PlusAssociates(x: Value, y: Value, z: Value)
    requires x.Num? || x.NaN?
    requires y.Num? || y.NaN?
    requires z.Num? || z.NaN?
    ensures Plus(Plus(x, y), z) == Plus(x, Plus(y, z))
  {
  }

  /** The `reduce` in `interactWithCart` computes the cart total on top of
      its seed. */
  lemma {:induction false} ReduceComputesCartTotal(cart: Cart, acc: Value)
    requires acc.Num? || acc.NaN?
    ensures Reduce(cart, TotalStep(), acc) == Ok(Plus(acc, CartTotal(cart)))
    decreases |cart|
  {
    if cart == [] {
      assert Reduce(cart, TotalStep(), acc) == Ok(acc);
    } else {
      var line := LineTotal(cart[0]);
      var next := Add(acc, line);
      ReduceStep(cart, acc);
      assert next == Plus(acc, line);
      ReduceComputesCartTotal(cart[1..], next);
      CartTotalUnfold(cart);
      PlusAssociates(acc, line, CartTotal(cart[1..]));
    }
  }

  /** The items after the update of `interactWithCart`: only the first item
      whose id is strictly equal to `productId` changes, its quantity
      becoming `add(quantity, quantityChange)`; it is removed, the other
      items keeping their order, when that quantity is `<= 0`. */
  function UpdateItems(cart: Cart, productId: Value, quantityChange: Value): (r: Cart)
    ensures FirstMatch(cart, productId).None? ==> r == cart
    ensures FirstMatch(cart, productId).Some? ==>
              var i := FirstMatch(cart, productId).value;
              var q := Add(Field(cart[i], QuantityKey), quantityChange);
              && (AtMost(q, Num(0.0)) ==>
                    && |r| == |cart| - 1
                    && (forall j :: 0 <= j < i ==> r[j] == cart[j])
                    && (forall j :: i <= j < |r| ==> r[j] == cart[j + 1]))
              && (!AtMost(q, Num(0.0)) ==>
                    && |r| == |cart|
                    && SameExceptQuantity(r[i], cart[i])
                    && QuantityKey in r[i]
                    && r[i][QuantityKey] == q
                    && (forall j :: 0 <= j < |cart| && j != i ==> r[j] == cart[j]))
  {
    match FirstMatch(cart, productId)
    case None => cart
    case Some(i) =>
      var q := Add(Field(cart[i], QuantityKey), quantityChange);
      if AtMost(q, Num(0.0)) then RemoveAt(cart, i)
      else cart[i := cart[i][QuantityKey := q]]
  }

  /** `interactWithCart(shoppingCart, productId, quantityChange)`: the items
      as `UpdateItems` leaves them, and as total the sum of
      `price × quantity` over the resulting cart (0 for an empty cart). */
  function InteractWithCart(cart: Cart, productId: Value, quantityChange: Value): (r: CartView)
    ensures r.cartItems == UpdateItems(cart, productId, quantityChange)
    ensures r.totalPrice == CartTotal(r.cartItems)
    ensures r.cartItems == [] ==> r.totalPrice == Num(0.0)
  {
    var items := UpdateItems(cart, productId, quantityChange);
    ReduceComputesCartTotal(items, Num(0.0));
    CartView(items, Reduce(items, TotalStep(), Num(0.0)).value)
  }

  /** With a numeric quantity and a numeric change, the matched item's new
      quantity is their sum, and the item is removed exactly when that sum
      is at most 0. */
  lemma InteractWithNumbers(cart: Cart, productId: Value, change: real)
    requires FirstMatch(cart, productId).Some?
    requires Field(cart[FirstMatch(cart, productId).value], QuantityKey).Num?
    ensures var i := FirstMatch(cart, productId).value;
            var before := Field(cart[i], QuantityKey).n;
            var r := InteractWithCart(cart, productId, Num(change));
            && (|r.cartItems| == |cart| - 1 <==> before + change <= 0.0)
            && (before + change > 0.0 ==> r.cartItems[i][QuantityKey] == Num(before + change))
  {
  }

  /** The end-to-end case: removing all three units of the only item
      empties the cart, and the total of the empty cart is 0. */
  lemma RemovingAllUnitsEmptiesCart()
    ensures var item := map[IdKey := Num(1.0), PriceKey := Num(10.99), QuantityKey := Num(3.0)];
            InteractWithCart([item], Num(1.0), Num(-3.0)) == CartView([], Num(0.0))
  {
    var item := map[IdKey := Num(1.0), PriceKey := Num(10.99), QuantityKey := Num(3.0)];
    assert FirstMatch([item], Num(1.0)) == Some(0);
    assert Add(Field(item, QuantityKey), Num(-3.0)) == Num(0.0);
    assert UpdateItems([item], Num(1.0), Num(-3.0)) == [];
  }

  /** Lowering a quantity of 3 by 1 keeps the item with quantity 2 (the
      repository's integration test expects an empty cart here). */
  lemma DecrementKeepsItem()
    ensures var item := map[IdKey := Num(1.0), PriceKey := Num(10.99), QuantityKey := Num(3.0)];
            InteractWithCart([item], Num(1.0), Num(-1.0))
            == CartView([item[QuantityKey := Num(2.0)]], Num(21.98))
  {
  }

  /** `addToCart(null, cart)` casts `null` to `[null]` and appends a
      placeholder item with an undefined id (the repository's integration
      test expects the cart unchanged). */
  lemma NullSelectionAppendsPlaceholder()
    ensures AddToCart(Null, []) == [map[IdKey := Undefined, NameKey := Str("Unknown Product"),
                                       PriceKey := Num(0.0), QuantityKey := Num(1.0)]]
  {
  }

  /** Products with missing fields are still added: a product without an id
      and one without a name each get their own item, with the defaults. */
  lemma IncompleteProductsAreAdded()
    ensures AddToCart(List([Obj(map[NameKey := Str("Product B")]),
                            Obj(map[IdKey := Num(2.0), PriceKey := Num(15.99)])]), [])
            == [map[IdKey := Undefined, NameKey := Str("Product B"),
                    PriceKey := Num(0.0), QuantityKey := Num(1.0)],
                map[IdKey := Num(2.0), NameKey := Str("Unknown Product"),
                    PriceKey := Num(15.99), QuantityKey := Num(1.0)]]
  {
    var b := Obj(map[NameKey := Str("Product B")]);
    var c := Obj(map[IdKey := Num(2.0), PriceKey := Num(15.99)]);
    var itemB := map[IdKey := Undefined, NameKey := Str("Product B"),
                     PriceKey := Num(0.0), QuantityKey := Num(1.0)];
    var itemC := map[IdKey := Num(2.0), NameKey := Str("Unknown Product"),
                     PriceKey := Num(15.99), QuantityKey := Num(1.0)];
    assert NewItem(b) == itemB by {
      assert Get(b, NameKey, Str("Unknown Product")) == Str("Product B");
      assert Get(b, PriceKey, Num(0.0)) == Num(0.0);
    }
    assert NewItem(c) == itemC by {
      assert Get(c, NameKey, Str("Unknown Product")) == Str("Unknown Product");
      assert Get(c, PriceKey, Num(0.0)) == Num(15.99);
    }
    assert AddOne([], b) == [itemB];
    assert FirstMatch([itemB], Num(2.0)).None? by {
      assert !StrictEquals(Field(itemB, IdKey), Num(2.0));
    }
    assert AddOne([itemB], c) == [itemB, itemC];
    assert [b, c][1..] == [c];
    assert AddEach([itemB], [c]) == AddEach([itemB, itemC], []);
  }
}

=== FILE: catalog.dfy ===
/** Browsing the catalog (scenario 1, steps 1 and 3): the category filter of
    `browseProductCatalog` and the minimum-price stage of
    `filterSearchResults`. */
module Catalog {
  import opened JsValue
  import opened Coercion
  import opened Collections
  import opened ProductFields

  /** The predicate `product => product.category.includes(category)`: it
      throws for a nullish product and for a category that is neither a
      string nor an array. */
  function InCategory(product: Value, category: Value): (r: Result<bool>)
    ensures IsNullish(product) ==> r == TypeError
    ensures !IsNullish(product) ==> r == Includes(Prop(product, CategoryKey), category)
  {
    match ReadProp(product, CategoryKey)
    case TypeError => TypeError
    case Ok(c) => Includes(c, category)
  }

  /** `browseProductCatalog(products, category)`: the products whose
      `category` includes the requested category, in catalog order; nothing
      for a null or undefined catalog; a TypeError as soon as one product's
      category cannot be searched. */
  function BrowseProductCatalog(products: Value, category: Value): (r: Result<seq<Value>>)
    ensures IsNullish(products) ==> r == Ok([])
    ensures r.Ok? <==> forall p :: p in Elements(products) ==> InCategory(p, category).Ok?
    ensures r.Ok? ==> IsSubsequence(r.value, Elements(products))
    ensures r.Ok? ==> forall p :: p in r.value ==> InCategory(p, category) == Ok(true)
    ensures r.Ok? ==> forall p :: InCategory(p, category) == Ok(true) ==>
                        multiset(r.value)[p] == multiset(Elements(products))[p]
  {
    Filter(Elements(products), (p: Value) => InCategory(p, category))
  }

  /** The iteratee test `product.price >= minPrice`, which throws for a
      nullish product. */
  function PriceAtLeast(product: Value, minPrice: Value): (r: Result<bool>)
    ensures r.TypeError? <==> IsNullish(product)
    ensures r.Ok? ==> (r.value <==> AtLeast(Prop(product, PriceKey), minPrice))
  {
    match ReadProp(product, PriceKey)
    case TypeError => TypeError
    case Ok(price) => Ok(AtLeast(price, minPrice))
  }

  function PriceTest(minPrice: Value): Value -> Result<bool> {
    (p: Value) => PriceAtLeast(p, minPrice)
  }

  /** The minimum-price stage of `filterSearchResults`, given the value of
      `filterOptions.minPrice`: when it is undefined the products pass
      through untouched; otherwise `reduce` collects, in order, exactly the
      products whose price test holds (`PriceAtLeast`), throwing when the
      test throws on some product. */
  function MinPriceStage(products: Value, minPrice: Value): (r: Result<Value>)
    ensures minPrice == Undefined ==> r == Ok(products)
    ensures minPrice != Undefined ==>
              (r.Ok? <==> forall i :: 0 <= i < |Elements(products)| ==> PriceAtLeast(Elements(products)[i], minPrice).Ok?)
    ensures minPrice != Undefined && r.Ok? ==>
              && r.value.List?
              && IsSubsequence(r.value.items, Elements(products))
              && (forall p :: p in r.value.items ==> PriceAtLeast(p, minPrice) == Ok(true))
              && (forall p :: PriceAtLeast(p, minPrice) == Ok(true) ==>
                    multiset(r.value.items)[p] == multiset(Elements(products))[p])
  {
    if StrictEquals(minPrice, Undefined) then Ok(products)
    else
      var xs := Elements(products);
      var collected := Reduce(xs, KeepIf(PriceTest(minPrice)), []);
      PricedFilter(xs, minPrice);
      if collected.Ok? then Ok(List(collected.value)) else TypeError
  }

  /** The start of `filterSearchResults(products, filterOptions)` up to the
      end of the minimum-price stage: reading `filterOptions.minPrice` throws
      for null or undefined options; otherwise the value read decides the
      stage, an object without `minPrice` passing the products through. */
  function MinPriceFilter(products: Value, filterOptions: Value): (r: Result<Value>)
    ensures IsNullish(filterOptions) ==> r == TypeError
    ensures !IsNullish(filterOptions) ==> r == MinPriceStage(products, Prop(filterOptions, MinPriceKey))
    ensures filterOptions.Obj? && MinPriceKey !in filterOptions.fields ==> r == Ok(products)
  {
    match ReadProp(filterOptions, MinPriceKey)
    case TypeError => TypeError
    case Ok(minPrice) => MinPriceStage(products, minPrice)
  }

  /** Collecting with `reduce` is filtering with the price test. */
  lemma PricedFilter(xs: seq<Value>, minPrice: Value)
    ensures var collected := Reduce(xs, KeepIf(PriceTest(minPrice)), []);
            && (collected.Ok? <==> forall i :: 0 <= i < |xs| ==> PriceAtLeast(xs[i], minPrice).Ok?)
            && (collected.Ok? ==>
                  && IsSubsequence(collected.value, xs)
                  && (forall p :: p in collected.value ==> PriceAtLeast(p, minPrice) == Ok(true))
                  && (forall p :: PriceAtLeast(p, minPrice) == Ok(true) ==>
                        multiset(collected.value)[p] == multiset(xs)[p]))
  {
    var test := PriceTest(minPrice);
    ReduceKeepIfIsFilter(xs, test, []);
    assert forall p :: test(p) == PriceAtLeast(p, minPrice);
    var filtered := Filter(xs, test);
    if filtered.Ok? {
      assert [] + filtered.value == filtered.value;
      assert Reduce(xs, KeepIf(test), []) == filtered;
    }
  }

  /** The minimum-price stage throws exactly on a nullish product, and keeps
      exactly the products priced at least `minPrice`, in order and with
      their multiplicity. */
  lemma MinPriceStageKeepsPricedProducts(products: Value, minPrice: Value)
    requires minPrice != Undefined
    ensures MinPriceStage(products, minPrice).Ok? <==> forall p :: p in Elements(products) ==> !IsNullish(p)
    ensures MinPriceStage(products, minPrice).Ok? ==>
              var kept := MinPriceStage(products, minPrice).value.items;
              && (forall p :: p in kept ==> !IsNullish(p) && AtLeast(Prop(p, PriceKey), minPrice))
              && (forall p :: !IsNullish(p) && AtLeast(Prop(p, PriceKey), minPrice) ==>
                    multiset(kept)[p] == multiset(Elements(products))[p])
  {
  }
}

=== FILE: coercion.dfy ===
/** The implicit conversions the scenario code relies on: ToString, ToNumber
    (also lodash `toNumber`), the relational operators `>=` and `<=`, the
    multiplication `*`, lodash `add`, and `includes` on strings and arrays. */
module Coercion {
  import opened JsValue

  // ---------------------------------------------------------------------
  // Digits and numerals

  /** The white space and line terminators that StringToNumber trims. */
  predicate IsWhiteSpace(c: char) {
    c == ' ' || c == '\t' || c == '\n' || c == '\r' || c == '\U{000B}' || c == '\U{000C}'
    || c == '\U{00A0}' || c == '\U{1680}' || ('\U{2000}' <= c <= '\U{200A}')
    || c == '\U{2028}' || c == '\U{2029}' || c == '\U{202F}' || c == '\U{205F}'
    || c == '\U{3000}' || c == '\U{FEFF}'
  }

  /** `s` without leading and trailing white space. */
  function Trim(s: string): (t: string)
    ensures |t| <= |s|
    ensures t != [] ==> !IsWhiteSpace(t[0]) && !IsWhiteSpace(t[|t| - 1])
    decreases |s|
  {
    if s == [] then s
    else if IsWhiteSpace(s[0]) then Trim(s[1..])
    else if IsWhiteSpace(s[|s| - 1]) then Trim(s[..|s| - 1])
    else s
  }

  /** Trimming removes white space around the text and nothing else: the
      result occurs in `s` with only white space before and after it. */
  lemma {:induction false} TrimRemovesOnlyWhiteSpace(s: string)
    ensures exists i :: TrimmedAt(s, Trim(s), i)
    decreases |s|
  {
    var t := Trim(s);
    if s == [] {
      assert TrimmedAt(s, t, 0);
    } else if IsWhiteSpace(s[0]) {
      TrimRemovesOnlyWhiteSpace(s[1..]);
      var i :| TrimmedAt(s[1..], t, i);
      TrimmedAtAfterLeadingSpace(s, t, i);
    } else if IsWhiteSpace(s[|s| - 1]) {
      TrimRemovesOnlyWhiteSpace(s[..|s| - 1]);
      var i :| TrimmedAt(s[..|s| - 1], t, i);
      TrimmedAtBeforeTrailingSpace(s, t, i);
    } else {
      assert s[0..|s|] == s;
      assert TrimmedAt(s, t, 0);
    }
  }

  lemma TrimmedAtAfterLeadingSpace(s: string, t: string, i: int)
    requires s != [] && IsWhiteSpace(s[0])
    requires TrimmedAt(s[1..], t, i)
    ensures TrimmedAt(s, t, i + 1)
  {
    assert s[1..][i..i + |t|] == s[i + 1..i + 1 + |t|];
    forall k | 0 <= k < i + 1
      ensures IsWhiteSpace(s[k])
    {
      if k > 0 { assert s[k] == s[1..][k - 1]; }
    }
    forall k | i + 1 + |t| <= k < |s|
      ensures IsWhiteSpace(s[k])
    {
      assert s[k] == s[1..][k - 1];
    }
  }

  lemma TrimmedAtBeforeTrailingSpace(s: string, t: string, i: int)
    requires s != [] && IsWhiteSpace(s[|s| - 1])
    requires TrimmedAt(s[..|s| - 1], t, i)
    ensures TrimmedAt(s, t, i)
  {
    assert s[..|s| - 1][i..i + |t|] == s[i..i + |t|];
    forall k | 0 <= k < i
      ensures IsWhiteSpace(s[k])
    {
      assert s[k] == s[..|s| - 1][k];
    }
    forall k | i + |t| <= k < |s|
      ensures IsWhiteSpace(s[k])
    {
      if k < |s| - 1 { assert s[k] == s[..|s| - 1][k]; }
    }
  }

  /** `t` occurs in `s` at position `i` with only white space before and
      after it. */
  predicate TrimmedAt(s: string, t: string, i: int) {
    && 0 <= i && i + |t| <= |s|
    && s[i..i + |t|] == t
    && (forall k :: 0 <= k < i ==> IsWhiteSpace(s[k]))
    && (forall k :: i + |t| <= k < |s| ==> IsWhiteSpace(s[k]))
  }

  /** The value of digit `c` in base `radix` (2, 8, 10 or 16), if it is one. */
  function DigitValue(c: char, radix: nat): (d: Option<nat>)
    ensures d.Some? ==> d.value < radix
  {
    var v: int :=
      if '0' <= c <= '9' then c as int - '0' as int
      else if 'a' <= c <= 'f' then c as int - 'a' as int + 10
      else if 'A' <= c <= 'F' then c as int - 'A' as int + 10
      else radix;
    if 0 <= v < radix then Some(v) else None
  }

  predicate AllDigits(s: string, radix: nat) {
    forall i :: 0 <= i < |s| ==> DigitValue(s[i], radix).Some?
  }

  /** The number written by the digit string `s` in base `radix`. */
  function DigitsValue(s: string, radix: nat): nat
    requires AllDigits(s, radix)
  {
    if s == [] then 0
    else DigitsValue(s[..|s| - 1], radix) * radix + DigitValue(s[|s| - 1], radix).value
  }

  function Pow10(k: nat): (p: nat)
    ensures p >= 1
  {
    if k == 0 then 1 else 10 * Pow10(k - 1)
  }

  /** 10 raised to a possibly negative exponent. */
  function Scale(k: int): (x: real)
    ensures x > 0.0
  {
    if k >= 0 then Pow10(k) as real else 1.0 / Pow10(-k) as real
  }

  /** The first index of `c1` or `c2` in `s`, or `|s|` when neither occurs. */
  function IndexOfEither(s: string, c1: char, c2: char): (i: nat)
    ensures i <= |s|
    ensures forall j :: 0 <= j < i ==> s[j] != c1 && s[j] != c2
    ensures i < |s| ==> s[i] == c1 || s[i] == c2
  {
    if s == [] then 0
    else if s[0] == c1 || s[0] == c2 then 0
    else 1 + IndexOfEither(s[1..], c1, c2)
  }

  /** An optionally signed decimal integer, as in an exponent part. */
  function ParseExponent(s: string): Option<int> {
    var neg := |s| > 0 && s[0] == '-';
    var ds := if |s| > 0 && (s[0] == '-' || s[0] == '+') then s[1..] else s;
    if ds == [] || !AllDigits(ds, 10) then None
    else
      var k: int := DigitsValue(ds, 10);
      Some(if neg then -k else k)
  }

  /** An unsigned decimal literal: digits with an optional fraction (at least
      one digit on one side of the point) and an optional exponent part. */
  function ParseUnsignedDecimal(u: string): Option<real> {
    var e := IndexOfEither(u, 'e', 'E');
    var mantissa := u[..e];
    var exponent := if e == |u| then Some(0) else ParseExponent(u[e + 1..]);
    // The first '.', searched for with the same character as both alternatives.
    var d := IndexOfEither(mantissa, '.', '.');
    var whole := mantissa[..d];
    var fraction := if d < |mantissa| then mantissa[d + 1..] else "";
    if exponent.None? || !AllDigits(whole, 10) || !AllDigits(fraction, 10) || (whole == "" && fraction == "")
    then None
    else
      var m := DigitsValue(whole, 10) as real + DigitsValue(fraction, 10) as real / Pow10(|fraction|) as real;
      Some(m * Scale(exponent.value))
  }

  /** A non-decimal integer literal after its `0x`, `0b` or `0o` prefix. */
  function ParseRadix(ds: string, radix: nat): (v: Value)
    ensures v.Num? || v.NaN?
  {
    if ds == [] || !AllDigits(ds, radix) then NaN else Num(DigitsValue(ds, radix) as real)
  }

  /** StringToNumber: white space is trimmed, the empty string is 0, prefixed
      literals must be unsigned, and anything malformed is NaN. */
  function ParseNumber(s: string): (v: Value)
    ensures v.Num? || v.NaN?
    ensures Trim(s) == "" ==> v == Num(0.0)
  {
    var t := Trim(s);
    if t == "" then Num(0.0)
    else if |t| >= 2 && t[0] == '0' && (t[1] == 'x' || t[1] == 'X') then ParseRadix(t[2..], 16)
    else if |t| >= 2 && t[0] == '0' && (t[1] == 'b' || t[1] == 'B') then ParseRadix(t[2..], 2)
    else if |t| >= 2 && t[0] == '0' && (t[1] == 'o' || t[1] == 'O') then ParseRadix(t[2..], 8)
    else
      var neg := t[0] == '-';
      var u := if t[0] == '-' || t[0] == '+' then t[1..] else t;
      match ParseUnsignedDecimal(u)
      case None => NaN
      case Some(x) => Num(if neg then -x else x)
  }

  function DigitChar(d: nat): (c: char)
    requires d < 10
    ensures DigitValue(c, 10) == Some(d)
  {
    ('0' as int + d) as char
  }

  /** The decimal numeral of `n`, without leading zeros. */
  function NatToString(n: nat): (s: string)
    ensures |s| >= 1 && AllDigits(s, 10)
    ensures s[0] == '0' ==> n == 0
  {
    if n < 10 then [DigitChar(n)] else NatToString(n / 10) + [DigitChar(n % 10)]
  }

  /** Up to `fuel` decimal digits of a fraction in [0, 1), stopping once
      the remaining fraction is zero. */
  function FractionDigits(f: real, fuel: nat): string
    requires 0.0 <= f < 1.0
    decreases fuel
  {
    if fuel == 0 || f == 0.0 then ""
    else
      var d := (f * 10.0).Floor;
      [DigitChar(d)] + FractionDigits(f * 10.0 - d as real, fuel - 1)
  }

  /** Number::toString in plain positional notation. */
  function NumberToString(x: real): string {
    if x < 0.0 then "-" + UnsignedNumberToString(-x) else UnsignedNumberToString(x)
  }

  function UnsignedNumberToString(x: real): string
    requires x >= 0.0
  {
    var whole := x.Floor;
    var fraction := x - whole as real;
    NatToString(whole) + (if fraction == 0.0 then "" else "." + FractionDigits(fraction, 20))
  }

  // ---------------------------------------------------------------------
  // Conversions

  /** ToString. An array joins its elements with commas, writing `null` and
      `undefined` elements as empty strings; a plain object is
      "[object Object]". */
  function ToString(v: Value): string
    decreases v
  {
    match v
    case Undefined => "undefined"
    case Null => "null"
    case Bool(b) => if b then "true" else "false"
    case Num(x) => NumberToString(x)
    case NaN => "NaN"
    case Str(s) => s
    case List(xs) => JoinItems(xs)
    case Obj(_) => "[object Object]"
  }

  function JoinItems(xs: seq<Value>): string
    decreases xs
  {
    if xs == [] then ""
    else
      var first := if IsNullish(xs[0]) then "" else ToString(xs[0]);
      if |xs| == 1 then first else first + "," + JoinItems(xs[1..])
  }

  /** ToPrimitive: arrays and plain objects become their string form. */
  function ToPrimitive(v: Value): (p: Value)
    ensures !p.List? && !p.Obj?
    ensures !v.List? && !v.Obj? ==> p == v
  {
    if v.List? || v.Obj? then Str(ToString(v)) else v
  }

  /** ToNumber, shared by the `*` and relational operators and by lodash
      `toNumber`. */
  function ToNumber(v: Value): (r: Value)
    ensures r.Num? || r.NaN?
    ensures v.Num? || v.NaN? ==> r == v
    ensures v == Undefined ==> r == NaN
    ensures v == Null ==> r == Num(0.0)
    ensures v == Bool(true) ==> r == Num(1.0)
    ensures v == Bool(false) ==> r == Num(0.0)
    ensures v.Str? && Trim(v.s) == "" ==> r == Num(0.0)
  {
    match v
    case Undefined => NaN
    case Null => Num(0.0)
    case Bool(b) => Num(if b then 1.0 else 0.0)
    case Num(_) => v
    case NaN => NaN
    case Str(s) => ParseNumber(s)
    case _ => ParseNumber(ToString(v))
  }

  // ---------------------------------------------------------------------
  // Operators

  /** Lexicographic order of strings by character code. */
  predicate StringLess(a: string, b: string) {
    if b == [] then false
    else if a == [] then true
    else if a[0] != b[0] then a[0] < b[0]
    else StringLess(a[1..], b[1..])
  }

  /** IsLessThan of the ECMAScript abstract relational comparison: two
      strings compare lexicographically, anything else numerically, and a
      NaN operand gives `undefined` (None). */
  function LessThan(a: Value, b: Value): Option<bool> {
    var pa := ToPrimitive(a);
    var pb := ToPrimitive(b);
    if pa.Str? && pb.Str? then Some(StringLess(pa.s, pb.s))
    else
      var x := ToNumber(pa);
      var y := ToNumber(pb);
      if x.Num? && y.Num? then Some(x.n < y.n) else None
  }

  /** `a >= b`: true exactly when `a < b` is false (not when it is undefined). */
  predicate AtLeast(a: Value, b: Value)
    ensures a.Num? && b.Num? ==> (AtLeast(a, b) <==> a.n >= b.n)
    ensures a.NaN? || b.NaN? || a.Undefined? || b.Undefined? ==> !AtLeast(a, b)
    ensures a.Str? && b.Str? ==> (AtLeast(a, b) <==> !StringLess(a.s, b.s))
  {
    LessThan(a, b) == Some(false)
  }

  /** `a <= b`: true exactly when `b < a` is false (not when it is undefined). */
  predicate AtMost(a: Value, b: Value)
    ensures a.Num? && b.Num? ==> (AtMost(a, b) <==> a.n <= b.n)
    ensures a.NaN? || b.NaN? || a.Undefined? || b.Undefined? ==> !AtMost(a, b)
  {
    LessThan(b, a) == Some(false)
  }

  /** IEEE addition on exact reals: NaN is absorbing. */
  function Plus(x: Value, y: Value): (r: Value)
    requires x.Num? || x.NaN?
    requires y.Num? || y.NaN?
    ensures r.Num? <==> x.Num? && y.Num?
    ensures r.Num? ==> r.n == x.n + y.n
    ensures r.NaN? <==> x.NaN? || y.NaN?
  {
    if x.Num? && y.Num? then Num(x.n + y.n) else NaN
  }

  /** The operand of lodash `add`: `undefined` counts as 0, anything else is
      coerced with `toNumber`. */
  function AddOperand(v: Value): (r: Value)
    ensures r.Num? || r.NaN?
    ensures v == Undefined ==> r == Num(0.0)
    ensures v.Num? || v.NaN? ==> r == v
  {
    if v == Undefined then Num(0.0) else ToNumber(v)
  }

  /** lodash `add(a, b)` as its tests pin it down: `undefined` is 0 (so
      `add(undefined, undefined)` is 0), numeric strings are coerced
      (`add('4', '3')` is 7), and the sum is NaN when an operand is not numeric. */
  function Add(a: Value, b: Value): (r: Value)
    ensures r.Num? || r.NaN?
    ensures a == Undefined && b == Undefined ==> r == Num(0.0)
    ensures a.Num? && b.Num? ==> r == Num(a.n + b.n)
    ensures a == Undefined && b.Num? ==> r == b
    ensures a.Num? && b == Undefined ==> r == a
    ensures a.NaN? || b.NaN? ==> r == NaN
  {
    var x := AddOperand(a);
    var y := AddOperand(b);
    assert a.Num? ==> x == Num(a.n);
    assert b.Num? ==> y == Num(b.n);
    Plus(x, y)
  }

  /** The multiplication `a * b`: both operands go through ToNumber. */
  function Times(a: Value, b: Value): (r: Value)
    ensures r.Num? || r.NaN?
    ensures a.Num? && b.Num? ==> r == Num(a.n * b.n)
    ensures a.NaN? || b.NaN? || a == Undefined || b == Undefined ==> r == NaN
  {
    var x := ToNumber(a);
    var y := ToNumber(b);
    if x.Num? && y.Num? then Num(x.n * y.n) else NaN
  }

  predicate OccursAt(needle: string, s: string, i: int) {
    0 <= i && i + |needle| <= |s| && s[i..i + |needle|] == needle
  }

  predicate IsSubstring(needle: string, s: string) {
    exists i :: 0 <= i <= |s| - |needle| && OccursAt(needle, s, i)
  }

  /** `container.includes(needle)`: substring search on a string (the needle
      converted with ToString), SameValueZero membership on an array, and a
      TypeError on anything else, which has no `includes` method. */
  function Includes(container: Value, needle: Value): (r: Result<bool>)
    ensures container.Str? ==> r == Ok(IsSubstring(ToString(needle), container.s))
    ensures container.List? ==> r.Ok? && (r.value <==> exists x :: x in container.items && SameValueZero(x, needle))
    ensures !container.Str? && !container.List? ==> r == TypeError
  {
    match container
    case Str(s) => Ok(IsSubstring(ToString(needle), s))
    case List(xs) => Ok(exists i :: 0 <= i < |xs| && SameValueZero(xs[i], needle))
    case _ => TypeError
  }

  // ---------------------------------------------------------------------
  // Properties

  lemma {:induction false} DigitsValueOfNatToString(n: nat)
    ensures DigitsValue(NatToString(n), 10) == n
  {
    var s := NatToString(n);
    if n >= 10 {
      DigitsValueOfNatToString(n / 10);
      assert s[..|s| - 1] == NatToString(n / 10);
    }
  }

  lemma IndexOfEitherAbsent(s: string, c1: char, c2: char)
    requires forall j :: 0 <= j < |s| ==> s[j] != c1 && s[j] != c2
    ensures IndexOfEither(s, c1, c2) == |s|
  {
  }

  /** A digit string has no exponent marker and no decimal point. */
  lemma DigitsHaveNoMarkers(s: string)
    requires AllDigits(s, 10)
    ensures IndexOfEither(s, 'e', 'E') == |s|
    ensures IndexOfEither(s, '.', '.') == |s|
  {
    forall j | 0 <= j < |s|
      ensures s[j] != 'e' && s[j] != 'E' && s[j] != '.'
    {
      assert DigitValue(s[j], 10).Some?;
    }
    IndexOfEitherAbsent(s, 'e', 'E');
    IndexOfEitherAbsent(s, '.', '.');
  }

  /** A decimal numeral without point or exponent denotes its digits' value. */
  lemma PlainDigitsParse(digits: string)
    requires digits != [] && AllDigits(digits, 10)
    ensures ParseUnsignedDecimal(digits) == Some(DigitsValue(digits, 10) as real)
  {
    DigitsHaveNoMarkers(digits);
    assert digits[..|digits|] == digits;
    assert AllDigits("", 10);
    assert DigitsValue("", 10) == 0;
    assert Scale(0) == 1.0;
  }

  lemma NumeralParses(n: nat)
    ensures ParseUnsignedDecimal(NatToString(n)) == Some(n as real)
  {
    DigitsValueOfNatToString(n);
    PlainDigitsParse(NatToString(n));
  }

  lemma IntegerToString(k: int)
    ensures ToString(Num(k as real)) == (if k < 0 then "-" else "") + NatToString(if k < 0 then -k else k)
  {
    var x := k as real;
    if k < 0 {
      assert (-x).Floor == -k;
    } else {
      assert x.Floor == k;
    }
  }

  lemma SignedNumeralParses(neg: bool, n: nat)
    ensures ParseNumber((if neg then "-" else "") + NatToString(n)) == Num(if neg then -(n as real) else n as real)
  {
    var digits := NatToString(n);
    var t := (if neg then "-" else "") + digits;
    assert Trim(t) == t;
    assert t[0] == '0' ==> |t| == 1;
    NumeralParses(n);
    var u := if t[0] == '-' || t[0] == '+' then t[1..] else t;
    assert u == digits;
  }

  /** `toNumber(String(k)) === k` for every integer `k`. */
  lemma IntegerRoundTrip(k: int)
    ensures ToNumber(Str(ToString(Num(k as real)))) == Num(k as real)
  {
    IntegerToString(k);
    SignedNumeralParses(k < 0, if k < 0 then -k else k);
  }
}

=== FILE: collections.dfy ===
/** The collection utilities the scenario code composes: lodash `filter`,
    `reduce` and `compact`. Callbacks may throw, and a throw propagates out of
    the utility unchanged. */
module Collections {
  import opened JsValue

  /** `a` is `b` with some elements dropped and the rest kept in order. */
  ghost predicate IsSubsequence<T>(a: seq<T>, b: seq<T>)
    decreases |b|
  {
    if a == [] then true
    else if b == [] then false
    else (a[0] == b[0] && IsSubsequence(a[1..], b[1..])) || IsSubsequence(a, b[1..])
  }

  /** lodash `filter(collection, predicate)` over the visited elements: the
      elements the predicate accepts, in order and with their multiplicity.
      The predicate runs on every element, so the call throws exactly when the
      predicate throws on some element. */
  function Filter<T(==,!new)>(xs: seq<T>, test: T -> Result<bool>): (r: Result<seq<T>>)
    ensures r.Ok? <==> forall i :: 0 <= i < |xs| ==> test(xs[i]).Ok?
    ensures r.Ok? ==> IsSubsequence(r.value, xs)
    ensures r.Ok? ==> forall x :: x in r.value ==> test(x) == Ok(true)
    ensures r.Ok? ==> forall x :: test(x) == Ok(true) ==> multiset(r.value)[x] == multiset(xs)[x]
  {
    if xs == [] then Ok([])
    else
      assert xs == [xs[0]] + xs[1..];
      match test(xs[0])
      case TypeError => TypeError
      case Ok(keep) =>
        match Filter(xs[1..], test)
        case TypeError => TypeError
        case Ok(rest) =>
          if keep then Ok([xs[0]] + rest) else Ok(rest)
  }

  /** lodash `reduce(collection, iteratee, accumulator)` over the visited
      elements: a left fold that stops at the first throw. */
  function Reduce<E, A>(xs: seq<E>, step: (A, E) -> Result<A>, acc: A): (r: Result<A>)
    ensures xs == [] ==> r == Ok(acc)
    ensures xs != [] && step(acc, xs[0]).TypeError? ==> r == TypeError
    ensures |xs| == 1 ==> r == step(acc, xs[0])
  {
    if xs == [] then Ok(acc)
    else
      match step(acc, xs[0])
      case TypeError => TypeError
      case Ok(next) => Reduce(xs[1..], step, next)
  }

  /** Folding one more element onto the end applies the iteratee to what
      the fold of the prefix returned, unless that already threw. */
  lemma {:induction false} ReduceSnoc<E, A>(xs: seq<E>, x: E, step: (A, E) -> Result<A>, acc: A)
    ensures Reduce(xs + [x], step, acc)
            == match Reduce(xs, step, acc)
               case TypeError => TypeError
               case Ok(a) => step(a, x)
  {
    if xs != [] {
      assert (xs + [x])[1..] == xs[1..] + [x];
      match step(acc, xs[0])
      case TypeError =>
      case Ok(next) => ReduceSnoc(xs[1..], x, step, next);
    }
  }

  /** The iteratee `(result, x) => { if (test(x)) result.push(x); return result; }`. */
  function KeepIf<T>(test: T -> Result<bool>): (seq<T>, T) -> Result<seq<T>> {
    (acc: seq<T>, x: T) =>
      match test(x)
      case TypeError => TypeError
      case Ok(keep) => Ok(if keep then acc + [x] else acc)
  }

  /** Collecting with `reduce` and a pushing iteratee is `filter`: it throws
      exactly when `filter` would, and otherwise appends what `filter`
      returns to the initial accumulator. */
  lemma {:induction false} ReduceKeepIfIsFilter<T(!new)>(xs: seq<T>, test: T -> Result<bool>, acc: seq<T>)
    ensures Reduce(xs, KeepIf(test), acc).Ok? <==> Filter(xs, test).Ok?
    ensures Filter(xs, test).Ok? ==> Reduce(xs, KeepIf(test), acc) == Ok(acc + Filter(xs, test).value)
  {
    if xs == [] {
      assert acc + [] == acc;
    } else {
      match test(xs[0])
      case TypeError =>
      case Ok(keep) =>
        var next := if keep then acc + [xs[0]] else acc;
        assert KeepIf(test)(acc, xs[0]) == Ok(next);
        ReduceKeepIfIsFilter(xs[1..], test, next);
        if Filter(xs[1..], test).Ok? {
          var rest := Filter(xs[1..], test).value;
          if keep {
            assert acc + ([xs[0]] + rest) == next + rest;
          }
        }
    }
  }

  /** The position of the first element that satisfies `p` (what
      `find` and `findIndex` look for), if any. */
  function FirstIndex<T>(xs: seq<T>, p: T -> bool): (r: Option<nat>)
    ensures r.Some? ==> r.value < |xs| && p(xs[r.value])
    ensures r.Some? ==> forall j :: 0 <= j < r.value ==> !p(xs[j])
    ensures r.None? <==> forall j :: 0 <= j < |xs| ==> !p(xs[j])
  {
    if xs == [] then None
    else if p(xs[0]) then Some(0)
    else match FirstIndex(xs[1..], p)
      case None => None
      case Some(j) => Some(j + 1)
  }

  /** `i` is the position of the first element of `xs` that satisfies `p`. */
  ghost predicate IsFirst<T>(xs: seq<T>, i: int, p: T -> bool) {
    && 0 <= i < |xs|
    && p(xs[i])
    && forall j :: 0 <= j < i ==> !p(xs[j])
  }

  lemma IsFirstUnique<T>(xs: seq<T>, i: int, k: int, p: T -> bool)
    requires IsFirst(xs, i, p) && IsFirst(xs, k, p)
    ensures i == k
  {
  }

  /** When `test` answers `p` wherever it does not throw, what `filter`
      returns is empty exactly when nothing satisfies `p`. */
  lemma {:induction false} FilterEmpty<T(!new)>(xs: seq<T>, test: T -> Result<bool>, p: T -> bool)
    requires Filter(xs, test).Ok?
    requires forall x :: test(x).Ok? ==> (test(x).value <==> p(x))
    ensures Filter(xs, test).value == [] <==> forall i :: 0 <= i < |xs| ==> !p(xs[i])
  {
    if xs != [] {
      assert test(xs[0]).Ok?;
      FilterEmpty(xs[1..], test, p);
      if !p(xs[0]) {
        assert forall i :: 1 <= i < |xs| ==> xs[i] == xs[1..][i - 1];
      }
    }
  }

  /** ... and otherwise starts with the first element that satisfies `p`. */
  lemma {:induction false} FilterHead<T(!new)>(xs: seq<T>, test: T -> Result<bool>, p: T -> bool)
    requires Filter(xs, test).Ok?
    requires forall x :: test(x).Ok? ==> (test(x).value <==> p(x))
    ensures Filter(xs, test).value != [] ==>
              exists i :: IsFirst(xs, i, p) && Filter(xs, test).value[0] == xs[i]
  {
    if xs != [] {
      assert test(xs[0]).Ok?;
      if p(xs[0]) {
        assert IsFirst(xs, 0, p);
      } else if Filter(xs, test).value != [] {
        FilterHead(xs[1..], test, p);
        var i :| IsFirst(xs[1..], i, p) && Filter(xs, test).value[0] == xs[1..][i];
        assert IsFirst(xs, i + 1, p);
      }
    }
  }

  /** `splice(i, 1)`: the element at `i` is removed and the others close
      up, keeping their order. */
  function RemoveAt<T>(xs: seq<T>, i: nat): (r: seq<T>)
    requires i < |xs|
    ensures |r| == |xs| - 1
    ensures forall j :: 0 <= j < i ==> r[j] == xs[j]
    ensures forall j :: i <= j < |r| ==> r[j] == xs[j + 1]
  {
    xs[..i] + xs[i + 1..]
  }

  /** lodash `compact(collection)`: the truthy elements, in order and with
      their multiplicity; `compact(null)` is empty. */
  function Compact(v: Value): (r: seq<Value>)
    ensures IsNullish(v) ==> r == []
    ensures IsSubsequence(r, Elements(v))
    ensures forall x :: x in r ==> Truthy(x)
    ensures forall x :: Truthy(x) ==> multiset(r)[x] == multiset(Elements(v))[x]
  {
    var kept := Filter(Elements(v), (x: Value) => Ok(Truthy(x)));
    kept.value
  }
}

=== FILE: js_value.dfy ===
/** JavaScript values as the two scenario modules see them: a tagged union,
    truthiness, the two equality relations they use, and single-key property
    reads (`v.key`, lodash `get(v, 'key', default)`). */
module JsValue {

  datatype Option<+T> = None | Some(value: T)

  /** The completion of a JavaScript expression: a value, or a thrown
      TypeError (the only exception the modelled code can raise). */
  datatype Result<+T> = Ok(value: T) | TypeError

  /** A JavaScript value. Numbers are exact reals plus NaN; arrays and plain
      objects are immutable values without identity. */
  datatype Value =
    | Undefined
    | Null
    | Bool(b: bool)
    | Num(n: real)
    | NaN
    | Str(s: string)
    | List(items: seq<Value>)
    | Obj(fields: map<string, Value>)

  /** The own enumerable fields of a plain object. */
  type Record = map<string, Value>

  /** Number.MAX_SAFE_INTEGER, the largest valid array length for lodash's isLength. */
  const MaxSafeInteger: int := 9007199254740991

  /** `null` and `undefined`: reading any property of them throws. */
  predicate IsNullish(v: Value) {
    v.Undefined? || v.Null?
  }

  /** JavaScript's ToBoolean: `false`, `0`, `NaN`, `""`, `null` and
      `undefined` are falsy; every array and object is truthy. */
  predicate Truthy(v: Value) {
    match v
    case Undefined => false
    case Null => false
    case Bool(b) => b
    case Num(n) => n != 0.0
    case NaN => false
    case Str(s) => s != ""
    case List(_) => true
    case Obj(_) => true
  }

  /** Strict equality `===`: no coercion, NaN is unequal to itself, and two
      composite values are distinct objects. */
  predicate StrictEquals(a: Value, b: Value) {
    match (a, b)
    case (Undefined, Undefined) => true
    case (Null, Null) => true
    case (Bool(x), Bool(y)) => x == y
    case (Num(x), Num(y)) => x == y
    case (Str(x), Str(y)) => x == y
    case _ => false
  }

  /** SameValueZero, the relation of lodash `eq` and `Array.prototype.includes`:
      strict equality except that NaN equals NaN. */
  predicate SameValueZero(a: Value, b: Value)
    ensures a.Num? && b.Num? ==> (SameValueZero(a, b) <==> a.n == b.n)
    ensures a.Str? && b.Str? ==> (SameValueZero(a, b) <==> a.s == b.s)
    ensures a.NaN? ==> (SameValueZero(a, b) <==> b.NaN?)
    ensures a.List? || a.Obj? ==> !SameValueZero(a, b)
    ensures a.Num? && !b.Num? ==> !SameValueZero(a, b)
  {
    StrictEquals(a, b) || (a.NaN? && b.NaN?)
  }

  lemma SameValueZeroSymmetric(a: Value, b: Value)
    ensures SameValueZero(a, b) <==> SameValueZero(b, a)
  {
  }

  /** Reading field `key` of a plain object: `undefined` when it is absent. */
  function Field(r: Record, key: string): (v: Value)
    ensures key !in r ==> v == Undefined
    ensures key in r ==> v == r[key]
  {
    if key in r then r[key] else Undefined
  }

  /** Two records that agree on every field except possibly `key`. */
  predicate AgreeExcept(a: Record, b: Record, key: string) {
    a - {key} == b - {key}
  }

  lemma AgreeExceptKeepsOthers(a: Record, b: Record, key: string, other: string)
    requires AgreeExcept(a, b, key)
    requires other != key
    ensures Field(a, other) == Field(b, other)
  {
    assert other in a <==> other in a - {key};
    assert other in b <==> other in b - {key};
    if other in a {
      assert a[other] == (a - {key})[other];
    }
  }

  /** The property `v[key]` of a value that is not nullish. Plain objects
      expose their fields; arrays and strings expose `length`; no other
      property of a primitive or of an array is modelled. */
  function Prop(v: Value, key: string): Value {
    match v
    case Obj(m) => Field(m, key)
    case List(xs) => if key == "length" then Num(|xs| as real) else Undefined
    case Str(s) => if key == "length" then Num(|s| as real) else Undefined
    case _ => Undefined
  }

  /** The property access `v.key`, which throws on `null` and `undefined`. */
  function ReadProp(v: Value, key: string): (r: Result<Value>)
    ensures r.TypeError? <==> IsNullish(v)
    ensures r.Ok? ==> r.value == Prop(v, key)
  {
    if IsNullish(v) then TypeError else Ok(Prop(v, key))
  }

  /** lodash `get(v, key, default)` with a single-key path: the property when
      it resolves to something other than `undefined`, otherwise `default`
      (also when `v` is nullish, which does not throw). */
  function Get(v: Value, key: string, default: Value): (r: Value)
    ensures IsNullish(v) ==> r == default
    ensures v.Obj? && key !in v.fields ==> r == default
    ensures v.Obj? && key in v.fields && v.fields[key] == Undefined ==> r == default
    ensures v.Obj? && key in v.fields && v.fields[key] != Undefined ==> r == v.fields[key]
    ensures r == Undefined ==> default == Undefined
  {
    var p := Prop(v, key);
    if p == Undefined then default else p
  }

  /** lodash `castArray(v)` called with one argument: an array is used as is,
      any other value (including `undefined`) is wrapped. */
  function CastArray(v: Value): (r: seq<Value>)
    ensures v.List? ==> r == v.items
    ensures !v.List? ==> r == [v]
  {
    if v.List? then v.items else [v]
  }

  /** The elements that the collection utilities (`filter`, `reduce`,
      `compact`) visit, in index order: an array's items, a string's
      characters, and nothing for `null`, `undefined`, other primitives and
      plain objects. */
  function Elements(v: Value): (r: seq<Value>)
    ensures IsNullish(v) ==> r == []
    ensures v.List? ==> r == v.items
    ensures v.Str? ==> |r| == |v.s| && forall i :: 0 <= i < |r| ==> r[i] == Str([v.s[i]])
  {
    match v
    case List(xs) => xs
    case Str(s) => seq(|s|, i requires 0 <= i < |s| => Str([s[i]]))
    case _ => []
  }

  /** lodash `isArrayLikeObject`: an object (not a primitive, not null) whose
      `length` is an integer in [0, MAX_SAFE_INTEGER]. Arrays always are;
      strings never are, since they are primitives. */
  predicate IsArrayLikeObject(v: Value)
    ensures v.List? ==> IsArrayLikeObject(v)
    ensures !v.List? && !v.Obj? ==> !IsArrayLikeObject(v)
    ensures v.Obj? && IsArrayLikeObject(v) ==> "length" in v.fields && v.fields["length"].Num?
    ensures v.Obj? && "length" !in v.fields ==> !IsArrayLikeObject(v)
    ensures v.Obj? && "length" in v.fields && v.fields["length"].Num? && v.fields["length"].n < 0.0 ==> !IsArrayLikeObject(v)
  {
    match v
    case List(_) => true
    case Obj(m) =>
      var len := Field(m, "length");
      len.Num? && len.n == len.n.Floor as real && 0.0 <= len.n <= MaxSafeInteger as real
    case _ => false
  }
}

=== FILE: producer.dfy ===
/** The producer's side of the store (scenario 2): signing in, entering a
    product, validating it, storing it and confirming it. */
module Producer {
  import opened JsValue
  import opened Coercion
  import opened Collections
  import opened ProductFields

  /** The `{ success, message }` objects these steps return. */
  datatype Outcome = Outcome(success: bool, message: string)

  // ---------------------------------------------------------------------
  // producerLogin

  const InvalidCredentials := "Invalid credentials"
  const AccessGranted := "Login successful. Access granted."

  /** A credential record whose `email` and `password` are `eq` to the inputs. */
  predicate IsProducer(cred: Value, email: Value, password: Value) {
    && !IsNullish(cred)
    && SameValueZero(Prop(cred, "email"), email)
    && SameValueZero(Prop(cred, "password"), password)
  }

  /** The filter predicate `cred => eq(cred.email, email) && eq(cred.password, password)`,
      which throws on a nullish credential. */
  function MatchesCredential(cred: Value, email: Value, password: Value): (r: Result<bool>)
    ensures r.TypeError? <==> IsNullish(cred)
    ensures r.Ok? ==> (r.value <==> IsProducer(cred, email, password))
  {
    match ReadProp(cred, "email")
    case TypeError => TypeError
    case Ok(e) => Ok(SameValueZero(e, email) && SameValueZero(Prop(cred, "password"), password))
  }

  function CredentialTest(email: Value, password: Value): Value -> Result<bool> {
    (c: Value) => MatchesCredential(c, email, password)
  }

  /** The credential filter throws exactly on a nullish record. */
  lemma LoginThrows(creds: seq<Value>, email: Value, password: Value)
    ensures Filter(creds, CredentialTest(email, password)).Ok? <==> forall c :: c in creds ==> !IsNullish(c)
  {
    var test := CredentialTest(email, password);
    if Filter(creds, test).TypeError? {
      var i :| 0 <= i < |creds| && !test(creds[i]).Ok?;
      assert IsNullish(creds[i]);
    }
  }

  function ProducerTest(email: Value, password: Value): Value -> bool {
    (c: Value) => IsProducer(c, email, password)
  }

  /** The records `filter` keeps decide the login: the `foundProducer` test
      holds exactly when the first matching record has no `length` of 0. */
  lemma LoginFound(creds: seq<Value>, email: Value, password: Value)
    requires Filter(creds, CredentialTest(email, password)).Ok?
    ensures var found := Filter(creds, CredentialTest(email, password)).value;
              ((|found| != 0 && !StrictEquals(Prop(found[0], "length"), Num(0.0))) <==>
                 exists i :: IsFirst(creds, i, ProducerTest(email, password))
                   && !StrictEquals(Prop(creds[i], "length"), Num(0.0)))
  {
    var test := CredentialTest(email, password);
    var p := ProducerTest(email, password);
    FilterEmpty(creds, test, p);
    FilterHead(creds, test, p);
    var found := Filter(creds, test).value;
    if found != [] {
      var k :| IsFirst(creds, k, p) && found[0] == creds[k];
      forall i | IsFirst(creds, i, p) ensures i == k {
        IsFirstUnique(creds, i, k, p);
      }
    }
  }

  /** `producerLogin(email, password, producerCredentials)`. A falsy email or
      password is refused without looking at the credentials. Otherwise the
      call throws on a nullish credential record, and succeeds exactly when
      the first record matching both fields does not carry a `length` of 0
      (the `foundProducer[0].length !== 0` test). */
  function ProducerLogin(email: Value, password: Value, credentials: Value): (r: Result<Outcome>)
    ensures !Truthy(email) || !Truthy(password) ==> r == Ok(Outcome(false, InvalidCredentials))
    ensures Truthy(email) && Truthy(password) ==>
              (r.Ok? <==> forall c :: c in Elements(credentials) ==> !IsNullish(c))
    ensures r.Ok? ==> r.value == Outcome(true, AccessGranted) || r.value == Outcome(false, InvalidCredentials)
    ensures r.Ok? && Truthy(email) && Truthy(password) ==>
              (r.value.success <==>
                 exists i :: IsFirst(Elements(credentials), i, ProducerTest(email, password))
                   && !StrictEquals(Prop(Elements(credentials)[i], "length"), Num(0.0)))
  {
    if !Truthy(email) || !Truthy(password) then Ok(Outcome(false, InvalidCredentials))
    else
      var creds := Elements(credentials);
      LoginThrows(creds, email, password);
      match Filter(creds, CredentialTest(email, password))
      case TypeError => TypeError
      case Ok(found) =>
        LoginFound(creds, email, password);
        if |found| != 0 && !StrictEquals(Prop(found[0], "length"), Num(0.0))
        then Ok(Outcome(true, AccessGranted))
        else Ok(Outcome(false, InvalidCredentials))
  }

  /** For credential records that carry no `length` field of 0 (as plain
      `{ email, password }` records never do), login succeeds exactly when
      some record matches both fields. */
  lemma LoginMatchesSomeRecord(email: Value, password: Value, credentials: Value)
    requires Truthy(email) && Truthy(password)
    requires forall c :: c in Elements(credentials) ==> !IsNullish(c) && !StrictEquals(Prop(c, "length"), Num(0.0))
    ensures ProducerLogin(email, password, credentials).Ok?
    ensures ProducerLogin(email, password, credentials).value.success <==>
              exists c :: c in Elements(credentials) && IsProducer(c, email, password)
  {
    var creds := Elements(credentials);
    var r := ProducerLogin(email, password, credentials);
    var p := ProducerTest(email, password);
    if c :| c in creds && p(c) {
      var k := FirstIndex(creds, p);
      assert IsFirst(creds, k.value, p);
      assert creds[k.value] in creds;
    }
  }

  /** Called without a credential list, `filter` finds nothing and login
      fails, whatever the email and password (the repository's integration
      test calls it that way and expects success). */
  lemma LoginWithoutCredentialsFails(email: Value, password: Value)
    ensures ProducerLogin(email, password, Undefined) == Ok(Outcome(false, InvalidCredentials))
  {
  }

  // ---------------------------------------------------------------------
  // addNewProduct

  const MissingFields := "Missing required fields."
  const ProductAdded := "Product added successfully."

  /** `{ success, message, productsDatabase }`. */
  datatype AddResult = AddResult(success: bool, message: string, productsDatabase: Value)

  /** The fields `addNewProduct` requires to be truthy. */
  predicate HasNamePriceCategory(info: Value) {
    Truthy(Prop(info, NameKey)) && Truthy(Prop(info, CategoryKey)) && Truthy(Prop(info, PriceKey))
  }

  /** The record built from the product information: every other field
      copied, the name capitalized, the price parsed, and a quantity of 1. */
  predicate IsNewProduct(p: Record, info: Record, capitalize: Value -> Value, parseFloat: Value -> Value) {
    && p.Keys == info.Keys + {NameKey, PriceKey, QuantityKey}
    && p[NameKey] == capitalize(Field(info, NameKey))
    && p[PriceKey] == parseFloat(Field(info, PriceKey))
    && p[QuantityKey] == Num(1.0)
    && forall k :: k in info && k != NameKey && k != PriceKey && k != QuantityKey ==> p[k] == info[k]
  }

  /** A truthy property other than `length` can only be a plain object's field. */
  lemma TruthyPropIsField(v: Value, key: string)
    requires key != "length" && Truthy(Prop(v, key))
    ensures v.Obj? && key in v.fields && v.fields[key] == Prop(v, key)
  {
  }

  /** `{ ...otherAttributes, name: capitalize(name), price: parseFloat(price), quantity: 0 }`
      followed by `newProduct.quantity = add(newProduct.quantity, 1)`. */
  function BuildProduct(info: Record, capitalize: Value -> Value, parseFloat: Value -> Value): (p: Record)
    ensures IsNewProduct(p, info, capitalize, parseFloat)
  {
    var otherAttributes := info - {NameKey, PriceKey};
    var newProduct := otherAttributes[NameKey := capitalize(Field(info, NameKey))]
                                     [PriceKey := parseFloat(Field(info, PriceKey))]
                                     [QuantityKey := Num(0.0)];
    var p := newProduct[QuantityKey := Add(newProduct[QuantityKey], Num(1.0))];
    assert p.Keys == info.Keys + {NameKey, PriceKey, QuantityKey};
    p
  }

  /** `addNewProduct(productInfo, productsDatabase)`, with lodash
      `capitalize` and `parseFloat` as parameters. Missing name, category or
      price returns the database untouched; otherwise the database is
      compacted (falsy entries dropped) and the new product appended. */
  function AddNewProduct(info: Value, db: Value, capitalize: Value -> Value, parseFloat: Value -> Value): (r: Result<AddResult>)
    ensures r.TypeError? <==> IsNullish(info)
    ensures !IsNullish(info) && !HasNamePriceCategory(info) ==> r == Ok(AddResult(false, MissingFields, db))
    ensures !IsNullish(info) && HasNamePriceCategory(info) ==>
              && info.Obj?
              && r.Ok? && r.value.success && r.value.message == ProductAdded
              && r.value.productsDatabase.List?
              && var items := r.value.productsDatabase.items;
                 && |items| == |Compact(db)| + 1
                 && items[..|items| - 1] == Compact(db)
                 && items[|items| - 1].Obj?
                 && IsNewProduct(items[|items| - 1].fields, info.fields, capitalize, parseFloat)
  {
    if IsNullish(info) then TypeError
    else
      var name := Prop(info, NameKey);
      var category := Prop(info, CategoryKey);
      var price := Prop(info, PriceKey);
      if !Truthy(name) || !Truthy(category) || !Truthy(price) then Ok(AddResult(false, MissingFields, db))
      else
        TruthyPropIsField(info, NameKey);
        var items := Compact(db) + [Obj(BuildProduct(info.fields, capitalize, parseFloat))];
        assert items[..|items| - 1] == Compact(db);
        Ok(AddResult(true, ProductAdded, List(items)))
  }

  // ---------------------------------------------------------------------
  // requestTransmission

  const TransmissionAccepted := "Product added to the database."
  const InvalidProductData := "Invalid product data."

  /** The four fields a product entry must carry. */
  predicate HasAllFields(info: Value) {
    && Truthy(Prop(info, NameKey))
    && Truthy(Prop(info, DescriptionKey))
    && Truthy(Prop(info, CategoryKey))
    && Truthy(Prop(info, PriceKey))
  }

  /** `requestTransmission(productData)`: destructuring a nullish argument
      throws; otherwise it succeeds exactly when name, description, category
      and price are all truthy. */
  function RequestTransmission(data: Value): (r: Result<Outcome>)
    ensures r.TypeError? <==> IsNullish(data)
    ensures r.Ok? ==> (r.value.success <==> HasAllFields(data))
    ensures r.Ok? ==> r.value.message == (if r.value.success then TransmissionAccepted else InvalidProductData)
  {
    if IsNullish(data) then TypeError
    else
      var name := Prop(data, NameKey);
      var description := Prop(data, DescriptionKey);
      var category := Prop(data, CategoryKey);
      var price := Prop(data, PriceKey);
      var validatedData := Truthy(name) && Truthy(description) && Truthy(category) && Truthy(price);
      if validatedData then Ok(Outcome(true, TransmissionAccepted))
      else Ok(Outcome(false, InvalidProductData))
  }

  // ---------------------------------------------------------------------
  // validateProductInfo

  const FieldsEmpty := "Required fields cannot be empty."
  const BadPrice := "Price should be a valid number greater than 0."
  const BadCategories := "Categories should be an array-like object."
  const InfoValid := "Product information is valid."

  /** `{ valid, message }`. */
  datatype Validation = Validation(valid: bool, message: string)

  /** One validation rule and the message reported when it fails. */
  datatype Check = Check(passes: bool, message: string)

  /** Running checks in order: valid when all pass, otherwise the message of
      the first failing check, whatever the later ones say. */
  function FirstFailure(checks: seq<Check>, validMessage: string): (r: Validation)
    ensures r.valid <==> forall k :: 0 <= k < |checks| ==> checks[k].passes
    ensures r.valid ==> r.message == validMessage
    ensures !r.valid ==> exists k :: 0 <= k < |checks| && !checks[k].passes
                           && (forall j :: 0 <= j < k ==> checks[j].passes)
                           && r.message == checks[k].message
  {
    if checks == [] then Validation(true, validMessage)
    else if !checks[0].passes then Validation(false, checks[0].message)
    else
      var rest := FirstFailure(checks[1..], validMessage);
      assert forall k :: 1 <= k < |checks| ==> checks[k] == checks[1..][k - 1];
      rest
  }

  lemma FirstFailureStep(c: Check, rest: seq<Check>, validMessage: string)
    ensures FirstFailure([c] + rest, validMessage)
            == if c.passes then FirstFailure(rest, validMessage) else Validation(false, c.message)
  {
    assert ([c] + rest)[1..] == rest;
  }

  /** The rules of `validateProductInfo`, in the order it applies them: all
      four fields present; the price a number greater than 0; the category
      an array-like object. */
  function ProductChecks(info: Value): seq<Check> {
    var price := Prop(info, PriceKey);
    [ Check(HasAllFields(info), FieldsEmpty),
      Check(price.Num? && price.n > 0.0, BadPrice),
      Check(IsArrayLikeObject(Prop(info, CategoryKey)), BadCategories) ]
  }

  /** `typeof price !== 'number' || isNaN(price) || price <= 0` fails
      exactly the prices that are not numbers greater than 0. */
  lemma PriceRuleMeaning(price: Value)
    ensures (!(price.Num? || price.NaN?) || price.NaN? || AtMost(price, Num(0.0))) <==> !(price.Num? && price.n > 0.0)
  {
  }

  /** `validateProductInfo(productInfo)`: destructuring a nullish argument
      throws; otherwise the checks run in order and the first failing one
      alone decides the message. */
  function ValidateProductInfo(info: Value): (r: Result<Validation>)
    ensures r.TypeError? <==> IsNullish(info)
    ensures r.Ok? ==> r.value == FirstFailure(ProductChecks(info), InfoValid)
  {
    if IsNullish(info) then TypeError
    else
      var name := Prop(info, NameKey);
      var description := Prop(info, DescriptionKey);
      var category := Prop(info, CategoryKey);
      var price := Prop(info, PriceKey);
      var checks := ProductChecks(info);
      FirstFailureStep(checks[0], checks[1..], InfoValid);
      FirstFailureStep(checks[1], checks[2..], InfoValid);
      FirstFailureStep(checks[2], [], InfoValid);
      assert checks == [checks[0]] + checks[1..];
      assert checks[1..] == [checks[1]] + checks[2..];
      assert checks[2..] == [checks[2]] + [];
      PriceRuleMeaning(price);
      if !Truthy(name) || !Truthy(description) || !Truthy(category) || !Truthy(price) then
        Ok(Validation(false, FieldsEmpty))
      else if !(price.Num? || price.NaN?) || price.NaN? || AtMost(price, Num(0.0)) then
        Ok(Validation(false, BadPrice))
      else if !IsArrayLikeObject(category) then
        Ok(Validation(false, BadCategories))
      else
        Ok(Validation(true, InfoValid))
  }

  /** A price given as a string, even a numeric one such as "1.5", is
      rejected by the price rule. */
  lemma StringPriceIsRejected(info: Value)
    requires !IsNullish(info) && HasAllFields(info) && Prop(info, PriceKey).Str?
    ensures ValidateProductInfo(info) == Ok(Validation(false, BadPrice))
  {
  }

  /** A category given as a string is rejected, since a string primitive is
      not an array-like object. */
  lemma StringCategoryIsRejected(info: Value)
    requires !IsNullish(info) && HasAllFields(info)
    requires Prop(info, PriceKey).Num? && Prop(info, PriceKey).n > 0.0
    requires Prop(info, CategoryKey).Str?
    ensures ValidateProductInfo(info) == Ok(Validation(false, BadCategories))
  {
  }

  /** `requestTransmission` checks only that the four fields are truthy, so a
      price that is no number at all, such as 'InvalidPrice', is transmitted. */
  lemma WordPriceIsTransmitted(data: Value)
    requires !IsNullish(data)
    requires Truthy(Prop(data, NameKey)) && Truthy(Prop(data, DescriptionKey)) && Truthy(Prop(data, CategoryKey))
    requires Prop(data, PriceKey).Str? && Prop(data, PriceKey).s != ""
    ensures RequestTransmission(data) == Ok(Outcome(true, TransmissionAccepted))
  {
  }

  /** Whatever `validateProductInfo` accepts, `requestTransmission` accepts. */
  lemma ValidProductIsTransmitted(info: Value)
    requires ValidateProductInfo(info).Ok? && ValidateProductInfo(info).value.valid
    ensures RequestTransmission(info) == Ok(Outcome(true, TransmissionAccepted))
  {
  }

  // ---------------------------------------------------------------------
  // addProductToDatabase and showProductAdditionConfirmation

  /** One call `db.insert(tableName, record)`. */
  datatype Insert = Insert(table: string, record: Record)

  /** The product as mutated by the call, and the database's insert log. */
  datatype Stored = Stored(product: Record, inserts: seq<Insert>)

  /** `addProductToDatabase(productDetails, db)` against a database modelled
      as its insert log: the product's quantity goes up by one (`undefined`
      counting as 0), nothing else about it changes, and exactly one insert
      of the updated product into 'products' is appended to the log. */
  function AddProductToDatabase(details: Record, log: seq<Insert>): (r: Stored)
    ensures r.inserts == log + [Insert("products", r.product)]
    ensures AgreeExcept(r.product, details, QuantityKey)
    ensures QuantityKey in r.product
    ensures r.product[QuantityKey] == Add(Field(details, QuantityKey), Num(1.0))
    ensures Field(details, QuantityKey).Num? ==> r.product[QuantityKey] == Num(Field(details, QuantityKey).n + 1.0)
    ensures Field(details, QuantityKey) == Undefined ==> r.product[QuantityKey] == Num(1.0)
  {
    var existingProductQuantity := Num(1.0);
    var updated := details[QuantityKey := Add(Field(details, QuantityKey), existingProductQuantity)];
    Stored(updated, log + [Insert("products", updated)])
  }

  /** Storing the same product details twice raises a numeric (or absent)
      quantity by two, and logs two inserts of the product as it was at each
      call. */
  lemma StoringTwiceCountsTwo(details: Record, log: seq<Insert>)
    requires Field(details, QuantityKey).Num? || Field(details, QuantityKey) == Undefined
    ensures var once := AddProductToDatabase(details, log);
            var twice := AddProductToDatabase(once.product, once.inserts);
            && twice.product[QuantityKey] == Num(QuantityOf(details) + 2.0)
            && |twice.inserts| == |log| + 2
            && twice.inserts[..|log|] == log
            && twice.inserts[|log|] == Insert("products", once.product)
            && AgreeExcept(twice.product, details, QuantityKey)
  {
  }

  /** `showProductAdditionConfirmation(productDetails)`: the product's name,
      or 'New Product' when it has none (or it is undefined, or the details
      are nullish). */
  function ShowProductAdditionConfirmation(details: Value): (r: Value)
    ensures details.Obj? && NameKey in details.fields && details.fields[NameKey] != Undefined ==>
              r == details.fields[NameKey]
    ensures !(details.Obj? && NameKey in details.fields && details.fields[NameKey] != Undefined) ==>
              r == Str("New Product")
  {
    Get(details, NameKey, Str("New Product"))
  }
}

=== FILE: product.dfy ===
/** The fields of a product record, shared by the catalog, the cart and the
    producer's steps. */
module ProductFields {
  import opened JsValue

  const IdKey := "id"
  const NameKey := "name"
  const DescriptionKey := "description"
  const CategoryKey := "category"
  const PriceKey := "price"
  const QuantityKey := "quantity"

  /** The filter option of `filterSearchResults` read by its first stage. */
  const MinPriceKey := "minPrice"

  /** A record's quantity when it is a number; absent (or any other value)
      counts as 0, as `add` treats `undefined`. */
  function QuantityOf(item: Record): real {
    match Field(item, QuantityKey)
    case Num(n) => n
    case _ => 0.0
  }
}
